=== FILE: README.md ===
# River water-level monitoring — a Dafny model of the ingestion pipeline and its consumers

The system collects water-level readings from river sensor nodes. The
`POST /reading` route of the ingestion server does the following for each reading:

- it classifies the reading into a severity band (normal, warning, danger);
- it confirms an alert only after the same band has held for 5 s;
- it keeps a live record per node: the current reading plus a most-recent-first history of at most 600 readings;
- it writes the reading to the durable store at most once every 30 s per node.

An older copy of the route classifies against the node's own threshold,
lets the sensor supply the timestamp, and pushes every reading to the
registered live-feed connections. The durable-readings route validates and
stores readings, gives them a threshold alert status, and computes per-node
statistics. The cache configuration fixes a reconnect policy and the cache
key names. Three dashboard pages consume the data:

- the live feed keeps a 30-level sparkline window per node;
- the alerts page polls the live map and keeps only nodes in warning or danger;
- the map page patches nodes from pushed readings, lists the five most recent significant changes and counts nodes per band.

The model is written in Dafny as pure functions over immutable data:

- requests become `Body` values with optional fields;
- the route's module-level maps (alert timers, last save times) and its live map become one `State` value threaded through `Step`;
- the current route actually re-reads the live map from a snapshot file on every request and writes it back; `Esp32.StepWithFile` models that, and `Esp32.FileAgreesWithThreadedState` shows it matches `Step` while the file holds what was last written;
- requests are handled one at a time, in order;
- the clock is a parameter (`now` in ms, and its ISO text);
- the durable store's answers are parameters (node lookup, the newest readings, whether an insert fails);
- WebSocket connection states, JSON serialization and date parsing are also parameters.

Modules:

- `Common`: `Option`, `Result`, the `Status` bands and the positive `Threshold`.
- `NodeStatus`: the dashboards' percentage rule.
- `AlertTimer`: the confirmation timer, in the two codings the two routes use.
- `LiveStore`: the live record with its 600-entry history.
- `Throttle`: the 30 s write throttle.
- `Esp32` and `Esp32Old`: the two ingestion routes.
- `Readings`: the durable-readings route.
- `RedisConfig`: the reconnect policy and key names.
- `NodeRecords`: the dashboards' node-with-reading type.
- `LiveFeed`, `Alerts`, `MapView`: the three pages.

Behaviour of the code worth knowing before reading the model:

- The current route classifies against the fixed levels 3.5 m and 4.5 m. The older route uses 70%/90% of the node's threshold. Neither policy is configurable. Both are modelled, and `Esp32Old.ClassifyMatchesClient` ties the second to the dashboards' rule.
- The current route pushes nothing to live subscribers; only the older route broadcasts.
- Its broadcast skips connections that are not open but does not remove them. Removal happens only in the close handler (`Esp32Old.Close`).
- The reconnect policy is commented as exponential backoff but is linear, `retries * 100` ms.

## Model

| member | source | states |
|---|---|---|
| NodeStatus.GetNodeStatus | client/src/lib/utils.ts:8-14 | danger exactly when the level is at least 90% of the threshold, warning exactly in [70%, 90%), normal exactly below 70% |
| NodeStatus.PercentageAtLeast | client/src/lib/utils.ts:9-12 | comparing the computed percentage with k is the same as comparing the level with k% of the threshold |
| NodeStatus.Boundaries | client/src/lib/utils.ts:11-12 | both band boundaries are inclusive: exactly 90% is danger, exactly 70% is warning |
| NodeStatus.Monotone | client/src/lib/utils.ts:8-14 | for a fixed threshold a higher level never yields a milder band |
| AlertTimer.Track | server/src/routes/esp32.ts:67-80 | a normal reading deletes the node's timer and is unconfirmed; an alert leaves a timer for its own band; a new or changed band restarts at now; an unchanged band keeps its start and is confirmed iff now - start >= window; other nodes' timers are untouched; timers exist only for alert bands |
| AlertTimer.TrackOld | server/src/routes/esp32-old.ts:71-90 | the older coding: a restart records (now, band) and is never confirmed; an unchanged band is confirmed iff now - start >= window; a normal reading deletes the timer |
| AlertTimer.CodingsAgree | server/src/routes/esp32-old.ts:76-86 | for any positive window the two codings give the same timers and the same confirmation |
| AlertTimer.CodingsDifferAtZeroWindow | server/src/routes/esp32.ts:70-77 | with a zero window the current coding confirms a fresh alert at once, the older one does not |
| AlertTimer.StaysConfirmed | server/src/routes/esp32.ts:69-77 | with a non-decreasing clock a confirmed alert stays confirmed while its band holds |
| AlertTimer.Run | server/src/routes/esp32.ts:67-80 | replaying a node's readings yields one confirmation flag per reading |
| AlertTimer.HeldRun | server/src/routes/esp32.ts:69-77 | while the band stays the same, flag i is exactly "time_i - start >= window" |
| AlertTimer.SustainedAlert | server/src/routes/esp32.ts:67-80 | for a node with no timer that holds one alert band, reading i is confirmed iff at least 5000 ms separate it from the first reading |
| LiveStore.Record | server/src/routes/esp32.ts:94-109 | the node becomes present and every other record is unchanged; current and lastUpdate are the new ones; the history has length min(prior+1, 600), starts with the reading, and continues with the newest part of the prior history; the 600 bound is preserved |
| LiveStore.FirstReading | server/src/routes/esp32.ts:94-103 | a node seen for the first time has exactly that reading as its history |
| LiveStore.Newest | server/src/routes/esp32.ts:106-109 | the k newest readings, newest first, have length min(n, k) |
| LiveStore.NewestPrefix | server/src/routes/esp32.ts:106-109 | taking one fewer of the newest readings gives a prefix |
| LiveStore.PrependNewest | server/src/routes/esp32.ts:103-109 | the newest reading followed by the newest of the earlier ones is the newest of all |
| LiveStore.HistoryHoldsNewest | server/src/routes/esp32.ts:94-109 | after any run of readings of a new node, its history is exactly the newest 600 of them (all when fewer), most recent first |
| LiveStore.LoadSnapshot | server/src/routes/esp32.ts:35-44 | a missing or unparsable snapshot reads as the empty map; a parsed one as itself |
| Throttle.MaybePersist | server/src/routes/esp32.ts:113-122 | the write fires iff now - last save (0 if never) >= 30000; on a write the node's save time becomes now, otherwise nothing changes |
| Throttle.AtMostOncePerInterval | server/src/routes/esp32.ts:114-118 | two readings less than 30 s apart are not both written |
| Throttle.NextWriteAfterInterval | server/src/routes/esp32.ts:114-118 | after a write, the next reading is written iff at least 30 s have passed |
| Throttle.Writes | server/src/routes/esp32.ts:113-122 | replaying a node's readings yields one write decision per reading |
| Throttle.WritesAfterLastSave | server/src/routes/esp32.ts:114-118 | across a run of readings, every write is at least 30 s after the last save |
| Throttle.WritesSeparated | server/src/routes/esp32.ts:113-122 | across any run of readings of one node, a later write comes at least 30000 ms after every earlier write |
| Esp32.Classify | server/src/routes/esp32.ts:62-65 | danger exactly at or above 4.5, warning exactly in [3.5, 4.5), normal exactly below 3.5 |
| Esp32.ClassifyMonotone | server/src/routes/esp32.ts:63-65 | a higher level never yields a milder band |
| Esp32.Step | server/src/routes/esp32.ts:51-131 | a missing or empty nodeId or a missing waterLevel is rejected with no state change and no write; otherwise the reply carries the node, timestamp and fixed-level band; the live record holds the reading with a bounded history; a timer exists iff the band is an alert; a new or changed alert starts its timer at now, an unchanged one keeps the timers as they were, and no other node's timer changes; confirmation holds iff a same-band timer at least 5000 ms old existed; the write fires iff 30 s passed, and only then is the save time updated |
| Esp32.ZeroLevelAccepted | server/src/routes/esp32.ts:55-57 | a level of 0 is accepted (only an absent level is rejected) |
| Esp32.OtherNodesUntouched | server/src/routes/esp32.ts:67-118 | a reading of one node leaves every other node's timer, save time and live record unchanged |
| Esp32.StepKeepsInvariant | server/src/routes/esp32.ts:67-109 | every request keeps "timers only for alert bands" and "histories at most 600" |
| Esp32.NewNodeVisible | server/src/routes/esp32.ts:94-104 | after the first reading of a node, the live map shows it with a history of exactly its current reading |
| Esp32.StepWithFile | server/src/routes/esp32.ts:35-111 | the live map is read from the file each request, with an absent or unparsable file read as empty; the reply, timers and throttle are those of the in-memory step and do not depend on the file; an accepted reading puts the node's new reading ahead of the history the file held for it, cut to 600, and writes the resulting map back; other nodes keep exactly what the file held, so an unusable file drops every other node; a rejected body leaves the file alone |
| Esp32.FileAgreesWithThreadedState | server/src/routes/esp32.ts:85-111 | when the file holds the map the previous request wrote, reading it back and writing it again gives exactly the threaded `Step` |
| Esp32.Initial | server/src/routes/esp32.ts:11-15 | the route starts with no timers and no save times, and with an empty live map when there is no snapshot |
| Esp32Old.Classify | server/src/routes/esp32-old.ts:64-69 | an unknown node is normal; otherwise the 70%/90% percentage bands of its threshold |
| Esp32Old.ClassifyMatchesClient | server/src/routes/esp32-old.ts:64-69 | for a known node the route's band equals the dashboards' band |
| Esp32Old.Register | server/src/routes/esp32-old.ts:10-11 | registering appends the connection after the existing ones |
| Esp32Old.Close | server/src/routes/esp32-old.ts:12-14 | closing removes every entry of that connection and keeps every other connection |
| Esp32Old.CloseUndoesRegister | server/src/routes/esp32-old.ts:10-15 | registering then closing a new connection restores the list |
| Esp32Old.Broadcast | server/src/routes/esp32-old.ts:17-24 | a connection receives the message iff it is registered and open; every send carries the same message |
| Esp32Old.ClosedClientSkipped | server/src/routes/esp32-old.ts:12-23 | after a close that connection receives nothing while every other open one still does |
| Esp32Old.ReplyTimestamp | server/src/routes/esp32-old.ts:55 | a non-empty supplied timestamp is used, otherwise the server's time |
| Esp32Old.Step | server/src/routes/esp32-old.ts:43-120 | a rejected body changes nothing, sends nothing and writes nothing; an accepted one replies with the threshold band; an unchanged alert keeps its timer and is confirmed iff 5 s passed since it started, and no other node's timer changes; every open connection, and only those, receives a message holding the node, level, reply timestamp, band and confirmation; the connection list is kept; the write fires iff 30 s passed and only then moves the save time |
| Esp32Old.SuppliedTimestampIgnoredByTimer | server/src/routes/esp32-old.ts:55-86 | a sensor-supplied timestamp changes neither the timers, the throttle nor the confirmation |
| Readings.AlertStatus | server/src/routes/readings.ts:119-124 | danger exactly at or above the threshold, warning exactly in [90%, 100%), normal below 90% |
| Readings.AlertStatusMonotone | server/src/routes/readings.ts:120-124 | a higher level never yields a milder band |
| Readings.AlertMeansClientDanger | server/src/routes/readings.ts:119-124 | the route reports an alert exactly where the dashboards show danger |
| Readings.ValidationErrors | server/src/routes/readings.ts:77-82 | each field is reported exactly when its rule fails: node_id an integer >= 1, water_level and flow_rate present and >= 0, timestamp absent or ISO-8601 |
| Readings.Create | server/src/routes/readings.ts:83-129 | any failed rule gives 400 with exactly those errors; an unknown node gives 404; a created row carries the validated fields, the server time when no timestamp was sent, and the threshold alert status; an insert failure is reported exactly when a valid body names a known node and the store's insert fails |
| Readings.Summarize | server/src/routes/readings.ts:179-190 | for a non-empty column the result's min and max are members bounding every value and avg is sum / count, lying between them |
| Readings.ComputeStats | server/src/routes/readings.ts:174-191 | no rows gives the no-data reply; otherwise the count and a true summary of both columns |
| Readings.TracksStep | server/src/routes/readings.ts:182-189 | one more value keeps the running least, greatest and sum correct |
| Readings.TracksSummarizes | server/src/routes/readings.ts:182-189 | the running values at the end form the summary |
| Readings.ExtendBounds | server/src/routes/readings.ts:182-184 | the sum stays between n times the least and n times the greatest value as values are added |
| RedisConfig.ReconnectDelay | server/src/config/redis.ts:7-13 | an error iff more than 10 retries, with the message "Too many retries"; otherwise a delay of retries * 100 ms, at most 1000 |
| RedisConfig.DelayMonotone | server/src/config/redis.ts:7-13 | the delay grows linearly by 100 ms per retry and never exceeds one second |
| RedisConfig.NodeKey | server/src/config/redis.ts:43-55 | a per-node key is "node:", the node id and the suffix, in that order |
| RedisConfig.NodeOfKey | server/src/config/redis.ts:43-55 | a node read back from a key rebuilds that key |
| RedisConfig.NodeKeyRoundTrip | server/src/config/redis.ts:43-55 | reading a built key back gives its node |
| RedisConfig.NodeKeyInjective | server/src/config/redis.ts:43-55 | for one suffix, distinct nodes get distinct keys |
| RedisConfig.LatestReading | server/src/config/redis.ts:43 | the latest-reading key names its node |
| RedisConfig.RecentReadings | server/src/config/redis.ts:46 | the recent-readings key names its node |
| RedisConfig.NodeStatusKey | server/src/config/redis.ts:52 | the status key names its node |
| RedisConfig.Aggregated | server/src/config/redis.ts:55 | the aggregate key names its node |
| RedisConfig.AlertQueue | server/src/config/redis.ts:49 | the alert queue key is no per-node key |
| RedisConfig.KeyKindsInjective | server/src/config/redis.ts:43-52 | each fixed-suffix builder is injective and no two kinds share a key |
| RedisConfig.AggregatedInjective | server/src/config/redis.ts:55 | for one node, distinct intervals get distinct aggregate keys |
| RedisConfig.AggregatedCanAliasLatest | server/src/config/redis.ts:43-55 | node ids are free text, so an aggregate key of one node can equal the latest-reading key of another |
| NodeRecords.WithLiveReading | client/src/pages/Alerts.tsx:47-58 | a live reading replaces the level and time, keeps the node and its other reading columns, and recomputes the band against the node's threshold |
| LiveFeed.KeepLast | client/src/pages/LiveFeed.tsx:49 | the window is the last min(n, k) elements |
| LiveFeed.ApplyReading | client/src/pages/LiveFeed.tsx:43-73 | other nodes unchanged; the node's latest reading is the pushed one; an existing node's window gains the level and drops the oldest beyond 30, and its count rises by one; a new node starts with that level and a count of one |
| LiveFeed.KeepLastAppend | client/src/pages/LiveFeed.tsx:49 | trimming the window before appending keeps the same levels as trimming after |
| LiveFeed.WindowHoldsNewest | client/src/pages/LiveFeed.tsx:43-65 | after any run of readings of a new node, its window holds exactly the last 30 levels and its count is the run's length |
| LiveFeed.OnMessageAsWritten | client/src/pages/LiveFeed.tsx:37-75 | as written, every first-seen node takes the selection |
| LiveFeed.OnMessage | client/src/pages/LiveFeed.tsx:37-75 | only live readings change the page; a made selection is kept; the first node is selected while nothing is |
| LiveFeed.SelectionStolenAsWritten | client/src/pages/LiveFeed.tsx:66-69 | as written, a second new node takes the selection away from the first |
| LiveFeed.SelectionKept | client/src/pages/LiveFeed.tsx:66-69 | as intended, the first node stays selected |
| LiveFeed.WaterLevelColour | client/src/pages/LiveFeed.tsx:92-96 | red exactly above 5 m, yellow exactly in (3, 5], green at or below 3 |
| LiveFeed.ColourMonotone | client/src/pages/LiveFeed.tsx:92-96 | a higher level never gets a milder colour |
| Alerts.PollNode | client/src/pages/Alerts.tsx:45-60 | a node the live map lacks is unchanged; a known one keeps its identity, threshold and the previous reading's other columns, takes the live level and time, and has its band recomputed against its threshold |
| Alerts.KeepAlerting | client/src/pages/Alerts.tsx:61 | the filter never lengthens the list |
| Alerts.KeepAlertingMembers | client/src/pages/Alerts.tsx:61 | exactly the nodes in warning or danger survive |
| Alerts.KeepAlertingAppend | client/src/pages/Alerts.tsx:61 | filtering a concatenation is the concatenation of the filtered parts |
| Alerts.PollUpdate | client/src/pages/Alerts.tsx:44-62 | every node kept is alerting and is a polled node; every polled node that is alerting is kept |
| Alerts.PollUpdateKeepsOrder | client/src/pages/Alerts.tsx:44-62 | the poll keeps relative order: polling a concatenation is the concatenation of the polls |
| Alerts.FetchStatus | client/src/pages/Alerts.tsx:112-115 | the newest reading's band, or normal when there is none |
| Alerts.FetchAlertNodes | client/src/pages/Alerts.tsx:103-130 | every listed node has a reading and an alert band and is a fetched node; every node whose newest reading is alerting is listed |
| Alerts.NodeWithoutReadingNotListed | client/src/pages/Alerts.tsx:125-128 | a node without any stored reading is never listed |
| MapView.MergeLive | client/src/pages/MapView.tsx:50-64 | same length and order; nodes of other names are unchanged; the named node keeps its identity, threshold and the previous reading's other columns, and takes the live level and time and its recomputed band |
| MapView.MergeUnknownNode | client/src/pages/MapView.tsx:50-64 | a reading for a node the map does not list changes nothing |
| MapView.Change | client/src/pages/MapView.tsx:114-118 | with both readings, previous level plus change is the latest level; otherwise the change is 0 |
| MapView.FetchedNode | client/src/pages/MapView.tsx:99-126 | the node keeps its id, name and threshold; the latest reading is the newest row, if any; the band comes from it, or is normal without one; the change is the difference of the two rows, or 0 with fewer than two |
| MapView.SignificantIffReadingsDiffer | client/src/pages/MapView.tsx:107-131 | a fetched node is a significant change exactly when it has two stored readings whose levels differ by more than 0.05 |
| MapView.Candidates | client/src/pages/MapView.tsx:130-137 | every entry comes from a node with a reading whose change exceeds 0.05 in size, and every such node has an entry |
| MapView.CandidatesOfOne | client/src/pages/MapView.tsx:130-137 | a single node yields its entry if it is significant and nothing otherwise |
| MapView.CandidatesAppend | client/src/pages/MapView.tsx:130-137 | the candidates of joined node lists are the joined candidates, so with CandidatesOfOne there is one entry per significant node, in list order |
| MapView.Insert | client/src/pages/MapView.tsx:138 | inserting adds exactly that entry (multiset) |
| MapView.InsertKeepsOrder | client/src/pages/MapView.tsx:138 | inserting into a newest-first list keeps it newest first |
| MapView.InsertKeepsTies | client/src/pages/MapView.tsx:138 | inserting places the new entry before every entry of the same time and keeps those in their order |
| MapView.SortNewestFirst | client/src/pages/MapView.tsx:138 | the result is a permutation of the input ordered newest first, and entries of equal time keep their input order (a stable sort) |
| MapView.RecentUpdates | client/src/pages/MapView.tsx:130-139 | exactly min(candidates, 5) entries, newest first, drawn from the significant changes without repetition beyond their multiplicity |
| MapView.PrefixIsNewest | client/src/pages/MapView.tsx:139 | a prefix of a newest-first list holds entries no older than any entry cut off |
| MapView.RecentUpdatesAreNewest | client/src/pages/MapView.tsx:138-139 | no significant change left out of the panel is newer than any entry shown |
| MapView.RecentUpdatesKeepsTieOrder | client/src/pages/MapView.tsx:138-139 | among candidates of equal time the panel shows the first ones in list order, as the stable sort keeps them before the cut |
| MapView.CountStatus | client/src/pages/MapView.tsx:201-203 | a band's count is the number of nodes whose status is that band, so never more than the node count |
| MapView.CountUnset | client/src/pages/MapView.tsx:199-204 | the nodes counted in no band are exactly those without a status |
| MapView.CountsPartition | client/src/pages/MapView.tsx:199-204 | the three band counts plus the nodes without a band add up to the total |
| MapView.Stats | client/src/pages/MapView.tsx:199-204 | the total is the node count; each band's field is the number of nodes in that band; the band fields add up to at most the total, and to exactly the total when every node has a band |
| MapView.AllSetMeansNoneUnset | client/src/pages/MapView.tsx:199-204 | when every node has a band, none is counted as unset |

## Left out

- Durable store, file and network I/O are not modelled. This covers the node lookup and creation, the insert, the pruning to 20 rows, the bytes and JSON format of the live snapshot file (its content is a `Snapshot` value), WebSocket transport and the cache client's connection. Their results are parameters where the code branches on them, otherwise they are omitted.
- The asynchronous write is out of scope: `persistToDatabase` is started before the reply and not awaited, and its failures are only logged. The model records only the decision to start it (`persisted`).
- Floating point is modelled as exact reals. Levels are `real`, and IEEE rounding, NaN and non-number JSON values are not modelled.
- A JSON `null` waterLevel is out: the model distinguishes only an absent level from a present number.
- Thresholds are positive (`Threshold`); a stored threshold of 0 (division by zero) is not modelled.
- The 500 error paths (a thrown exception in a route) are not modelled, except the insert failure of `POST /readings`.
- The read-only routes are left out: `GET /live` and the `GET` routes of readings.ts (by node, latest, filtered list), the older route's `GET /latest/:nodeId`, and `DELETE /:id`. They only forward store queries.
- The older route's `GET /live` calls a `readLiveData` that its file never defines. It is not modelled.
- The older route's `GET /reading` help text is not modelled.
- Readings.ValidationErrors: express-validator coerces strings ("3" passes `isInt`). The model takes already-numeric fields, so string coercion and the exact error-object format are not modelled.
- The statistics route's date bounds (`startDate`, `endDate`) filter rows in the store and are not modelled; `Readings.ComputeStats` takes the selected rows.
- The LiveFeed sparkline scaling (`max`, `min`, `range`) and active-node choice for display are not modelled, nor any rendering, CSS classes or connection-status badges.
- Dashboard timing is out: polling every second, re-fetching on store change notifications and `lastUpdate` clocks are event wiring around the modelled functions.
- MapView.RecentUpdates: timestamps are turned into milliseconds by a parameter. An invalid date (NaN time, which makes the comparator inconsistent) is not modelled.
- Esp32.Step: a node id naming an inherited object member ("constructor", "__proto__") is treated as a fresh key. In the code such an id finds a truthy inherited value, so the live record is never created and the route answers 500 after the timer has already been updated (esp32.ts:94-103).
- Esp32Old.Step: the same ids are treated as fresh keys. In the code `lastDbSave[id] || 0` yields a function, the subtraction gives NaN and the durable write never fires for that node (esp32-old.ts:103-104).
- Concurrent requests are not modelled: each request runs to completion before the next. In the older route two requests can interleave at the node lookup (esp32-old.ts:58), and in the current route two processes could race on the snapshot file.
- Alerts.FetchAlertNodes: the store's newest reading per node is given as a map from node id to reading rather than one query per node.
- The older route's pushed message is produced by a serialization parameter; its JSON shape is not modelled.

## Findings

| source | as written | input that shows it | evidently intended | confidence | as-written member | corrected member |
|---|---|---|---|---|---|---|
| client/src/pages/LiveFeed.tsx:66-69 | the auto-select test reads `selectedNode` from the closure created on mount, which is always null, so every first-seen node is selected | readings from node "a" then node "b" on a fresh page: "b" ends up selected | select the first node only while nothing is selected | not executed | LiveFeed.SelectionStolenAsWritten | LiveFeed.SelectionKept |

=== FILE: alert_timer.dfy ===
/**
 Per-node alert confirmation. A warning or danger reading starts (or keeps) a
 timer for its node; the alert counts as confirmed once the same status has
 been held for the confirmation window. A change of status restarts the timer
 and a normal reading discards it.

 Two codings of the same machine exist: the current ingestion route restarts
 the timer and then measures the elapsed time (so a restart measures 0), the
 older route only measures when the timer was not restarted.
 */
module AlertTimer {
  import opened Common

  /** How long (ms) a non-normal status must persist to count as confirmed. */
  const ConfirmWindowMs: nat := 5000

  /** When the node's current non-normal status began, and which status it is. */
  datatype Timer = Timer(startTime: nat, status: Status)

  type Timers = map<string, Timer>

  /** The timers that survive one reading, and whether that reading is confirmed. */
  datatype Outcome = Outcome(timers: Timers, confirmed: bool)

  /** Timers exist only for non-normal statuses. */
  ghost predicate WellFormed(timers: Timers)
  {
    forall n :: n in timers ==> timers[n].status.IsAlert()
  }

  /** The timer map is unchanged on every node other than `node`. */
  ghost predicate OthersUnchanged(before: Timers, after: Timers, node: string)
  {
    forall n :: n != node ==> (n in after <==> n in before) && (n in after ==> after[n] == before[n])
  }

  /** A reading whose status starts a new timer: no timer yet, or one for another status. */
  predicate Restarts(timers: Timers, node: string, status: Status)
  {
    status.IsAlert() && (node !in timers || timers[node].status != status)
  }

  /**
   The coding of the current route: restart the timer when needed, then
   measure `now - startTime` against the window.
   */
  function Track(timers: Timers, node: string, status: Status, now: nat, window: nat): (o: Outcome)
    ensures OthersUnchanged(timers, o.timers, node)
    ensures WellFormed(timers) ==> WellFormed(o.timers)
    // a normal reading deletes the node's timer and is never confirmed
    ensures !status.IsAlert() ==> node !in o.timers && !o.confirmed
    // a non-normal reading leaves a timer for exactly that status
    ensures status.IsAlert() ==> node in o.timers && o.timers[node].status == status
    // a new or changed status starts its timer now
    ensures Restarts(timers, node, status) ==> o.timers[node].startTime == now
    // an unchanged status keeps its start time and is confirmed once the window has elapsed
    ensures status.IsAlert() && !Restarts(timers, node, status) ==>
              o.timers[node] == timers[node] && (o.confirmed <==> now - timers[node].startTime >= window)
    // with a positive window, a reading that (re)starts the timer is not confirmed
    ensures window > 0 && Restarts(timers, node, status) ==> !o.confirmed
  {
    if status.IsAlert() then
      var t := if node !in timers || timers[node].status != status
               then timers[node := Timer(now, status)]
               else timers;
      var duration := now - t[node].startTime;
      Outcome(t, duration >= window)
    else
      Outcome(timers - {node}, false)
  }

  /**
   The coding of the older route: a new or changed status only starts the
   timer; the elapsed time is measured only while the status is unchanged.
   */
  function TrackOld(timers: Timers, node: string, status: Status, now: nat, window: nat): (o: Outcome)
    ensures OthersUnchanged(timers, o.timers, node)
    ensures WellFormed(timers) ==> WellFormed(o.timers)
    ensures !status.IsAlert() ==> node !in o.timers && !o.confirmed
    ensures Restarts(timers, node, status) ==>
              node in o.timers && o.timers[node] == Timer(now, status) && !o.confirmed
    ensures status.IsAlert() && !Restarts(timers, node, status) ==>
              o.timers == timers && (o.confirmed <==> now - timers[node].startTime >= window)
  {
    if status == Warning || status == Danger then
      if node !in timers || timers[node].status != status then
        Outcome(timers[node := Timer(now, status)], false)
      else
        var duration := now - timers[node].startTime;
        Outcome(timers, duration >= window)
    else
      Outcome(timers - {node}, false)
  }

  /** For any positive window the two codings agree on every reading. */
  lemma CodingsAgree(timers: Timers, node: string, status: Status, now: nat, window: nat)
    requires window > 0
    ensures Track(timers, node, status, now, window) == TrackOld(timers, node, status, now, window)
  {
  }

  /** With a zero window they differ: the current coding confirms a fresh alert at once. */
  lemma CodingsDifferAtZeroWindow(node: string, now: nat)
    ensures Track(map[], node, Danger, now, 0).confirmed
    ensures !TrackOld(map[], node, Danger, now, 0).confirmed
  {
  }

  /** With a non-decreasing clock, a confirmed alert stays confirmed while its status holds. */
  lemma StaysConfirmed(timers: Timers, node: string, status: Status, t1: nat, t2: nat, window: nat)
    requires t1 <= t2
    requires Track(timers, node, status, t1, window).confirmed
    ensures Track(Track(timers, node, status, t1, window).timers, node, status, t2, window).confirmed
  {
  }

  /** One classified reading of a single node, at server time `time`. */
  datatype Sample = Sample(status: Status, time: nat)

  /** The confirmation flags a node reports for a sequence of readings. */
  function Run(timers: Timers, node: string, samples: seq<Sample>, window: nat): (flags: seq<bool>)
    ensures |flags| == |samples|
    decreases |samples|
  {
    if samples == [] then []
    else
      var o := Track(timers, node, samples[0].status, samples[0].time, window);
      [o.confirmed] + Run(o.timers, node, samples[1..], window)
  }

  /** While the status stays `s`, each flag is exactly "the window has elapsed since `start`". */
  lemma {:induction false} HeldRun(timers: Timers, node: string, samples: seq<Sample>, window: nat, start: nat, s: Status)
    requires node in timers && timers[node] == Timer(start, s) && s.IsAlert()
    requires forall i :: 0 <= i < |samples| ==> samples[i].status == s
    ensures forall i :: 0 <= i < |samples| ==>
              Run(timers, node, samples, window)[i] == (samples[i].time - start >= window)
    decreases |samples|
  {
    if samples != [] {
      var o := Track(timers, node, samples[0].status, samples[0].time, window);
      assert o.timers[node] == Timer(start, s);
      HeldRun(o.timers, node, samples[1..], window, start, s);
      var flags := Run(timers, node, samples, window);
      assert flags == [o.confirmed] + Run(o.timers, node, samples[1..], window);
      forall i | 0 <= i < |samples|
        ensures flags[i] == (samples[i].time - start >= window)
      {
        if i > 0 {
          assert samples[i] == samples[1..][i - 1];
        }
      }
    }
  }

  /**
   A node without a timer that reports the same non-normal status throughout:
   reading i is confirmed exactly when at least `window` ms separate it from
   the first reading. In particular every reading within the first 5000 ms is
   unconfirmed and the first one at or after 5000 ms is confirmed.
   */
  lemma {:induction false} SustainedAlert(timers: Timers, node: string, samples: seq<Sample>, window: nat)
    requires node !in timers
    requires |samples| > 0 && samples[0].status.IsAlert()
    requires forall i :: 0 <= i < |samples| ==> samples[i].status == samples[0].status
    ensures forall i :: 0 <= i < |samples| ==>
              Run(timers, node, samples, window)[i] == (samples[i].time - samples[0].time >= window)
  {
    var s := samples[0].status;
    var t0 := samples[0].time;
    var o := Track(timers, node, s, t0, window);
    assert o.timers[node] == Timer(t0, s);
    HeldRun(o.timers, node, samples[1..], window, t0, s);
    var flags := Run(timers, node, samples, window);
    assert flags == [o.confirmed] + Run(o.timers, node, samples[1..], window);
    forall i | 0 <= i < |samples|
      ensures flags[i] == (samples[i].time - t0 >= window)
    {
      if i > 0 {
        assert samples[i] == samples[1..][i - 1];
      }
    }
  }
}

=== FILE: alerts.dfy ===
/**
 The alerts page. Every second it polls the live map and patches the listed
 nodes whose name the live map knows, then keeps only the nodes in warning or
 danger. Its fetch path rebuilds the list from each node's newest durable
 reading. The durable store's answers are parameters.
 */
module Alerts {
  import opened Common
  import NodeStatus
  import LiveStore
  import opened NodeRecords

  /** One listed node after a poll of the live map. */
  function PollNode(node: NodeWithReading, live: LiveStore.LiveData): (n: NodeWithReading)
    // a node the live map does not know keeps its previous reading and status
    ensures node.name !in live ==> n == node
    // a known node takes level and time from the live record's current reading,
    // and its status is recomputed against its own threshold
    ensures node.name in live ==>
              var current := live[node.name].current;
              && n.nodeId == node.nodeId && n.name == node.name && n.threshold == node.threshold
              && n.latestReading.Some?
              && n.latestReading.value.waterLevel == current.waterLevel
              && n.latestReading.value.timestamp == current.timestamp
              // the previous reading's other columns are kept
              && n.latestReading.value.columns
                 == (if node.latestReading.Some? then node.latestReading.value.columns else None)
              && n.status == Some(NodeStatus.GetNodeStatus(current.waterLevel, node.threshold))
  {
    if node.name in live then
      var current := live[node.name].current;
      WithLiveReading(node, current.waterLevel, current.timestamp)
    else
      node
  }

  /** Every listed node patched from the live map, in list order. */
  function Patched(nodes: seq<NodeWithReading>, live: LiveStore.LiveData): (ps: seq<NodeWithReading>)
    ensures |ps| == |nodes|
    ensures forall i :: 0 <= i < |nodes| ==> ps[i] == PollNode(nodes[i], live)
  {
    seq(|nodes|, i requires 0 <= i < |nodes| => PollNode(nodes[i], live))
  }

  /** The nodes in warning or danger, in list order. */
  function KeepAlerting(ns: seq<NodeWithReading>): (out: seq<NodeWithReading>)
    ensures |out| <= |ns|
    decreases |ns|
  {
    if ns == [] then []
    else (if InAlert(ns[0]) then [ns[0]] else []) + KeepAlerting(ns[1..])
  }

  /** Exactly the alerting nodes survive the filter. */
  lemma {:induction false} KeepAlertingMembers(ns: seq<NodeWithReading>)
    ensures forall m :: m in KeepAlerting(ns) <==> m in ns && InAlert(m)
    decreases |ns|
  {
    if ns != [] {
      KeepAlertingMembers(ns[1..]);
      assert ns == [ns[0]] + ns[1..];
    }
  }

  /** Filtering a concatenation is the concatenation of the filtered parts. */
  lemma {:induction false} KeepAlertingAppend(a: seq<NodeWithReading>, b: seq<NodeWithReading>)
    ensures KeepAlerting(a + b) == KeepAlerting(a) + KeepAlerting(b)
    decreases |a|
  {
    if a == [] {
      assert a + b == b;
    } else {
      var head := if InAlert(a[0]) then [a[0]] else [];
      assert (a + b)[0] == a[0];
      assert (a + b)[1..] == a[1..] + b;
      KeepAlertingAppend(a[1..], b);
      calc {
        KeepAlerting(a + b);
        head + KeepAlerting(a[1..] + b);
        head + (KeepAlerting(a[1..]) + KeepAlerting(b));
        (head + KeepAlerting(a[1..])) + KeepAlerting(b);
      }
    }
  }

  /** The list after a poll: every node patched, then only the alerting ones kept. */
  function PollUpdate(nodes: seq<NodeWithReading>, live: LiveStore.LiveData): (out: seq<NodeWithReading>)
    ensures |out| <= |nodes|
    ensures forall m :: m in out ==> InAlert(m)
    ensures forall m :: m in out ==> exists n :: n in nodes && m == PollNode(n, live)
    ensures forall n :: n in nodes && InAlert(PollNode(n, live)) ==> PollNode(n, live) in out
  {
    var ps := Patched(nodes, live);
    KeepAlertingMembers(ps);
    assert forall m :: m in ps ==> exists i :: 0 <= i < |nodes| && m == PollNode(nodes[i], live);
    assert forall n :: n in nodes ==> PollNode(n, live) in ps;
    KeepAlerting(ps)
  }

  /**
   The poll keeps the original relative order: polling a concatenation is the
   concatenation of the polls.
   */
  lemma PollUpdateKeepsOrder(a: seq<NodeWithReading>, b: seq<NodeWithReading>, live: LiveStore.LiveData)
    ensures PollUpdate(a + b, live) == PollUpdate(a, live) + PollUpdate(b, live)
  {
    assert Patched(a + b, live) == Patched(a, live) + Patched(b, live);
    KeepAlertingAppend(Patched(a, live), Patched(b, live));
  }

  // ---------------------------------------------------------------------------
  // Fetch path

  /** The status the fetch path gives: from the newest reading, normal without one. */
  function FetchStatus(latest: Option<Reading>, threshold: Threshold): (s: Status)
    ensures latest.None? ==> s == Normal
    ensures latest.Some? ==> s == NodeStatus.GetNodeStatus(latest.value.waterLevel, threshold)
  {
    if latest.Some? then NodeStatus.GetNodeStatus(latest.value.waterLevel, threshold) else Normal
  }

  /** A node as fetched: its newest stored reading, if any, and the status from it. */
  function Fetched(node: NodeWithReading, newest: map<int, Reading>): NodeWithReading
  {
    var latest := if node.nodeId in newest then Some(newest[node.nodeId]) else None;
    node.(latestReading := latest, status := Some(FetchStatus(latest, node.threshold)))
  }

  /** Shown by the fetch path: a node with a reading whose status is warning or danger. */
  predicate Listed(n: NodeWithReading)
  {
    n.latestReading.Some? && InAlert(n)
  }

  /** The fetch path: rebuild each node from `newest` (node id to newest reading), keep the listed ones. */
  function FetchAlertNodes(nodes: seq<NodeWithReading>, newest: map<int, Reading>): (out: seq<NodeWithReading>)
    ensures |out| <= |nodes|
    ensures forall m :: m in out ==> Listed(m)
    ensures forall m :: m in out ==> exists n :: n in nodes && m == Fetched(n, newest)
    ensures forall n :: n in nodes && n.nodeId in newest
              && NodeStatus.GetNodeStatus(newest[n.nodeId].waterLevel, n.threshold).IsAlert()
              ==> Fetched(n, newest) in out
    decreases |nodes|
  {
    if nodes == [] then []
    else
      var m := Fetched(nodes[0], newest);
      var rest := FetchAlertNodes(nodes[1..], newest);
      assert forall n :: n in nodes[1..] ==> n in nodes;
      if Listed(m) then [m] + rest else rest
  }

  /** A node without any stored reading never appears on the alerts page. */
  lemma NodeWithoutReadingNotListed(nodes: seq<NodeWithReading>, newest: map<int, Reading>, n: NodeWithReading)
    requires n in nodes && n.nodeId !in newest
    ensures Fetched(n, newest) !in FetchAlertNodes(nodes, newest)
  {
  }
}

=== FILE: common.dfy ===
/**
 Shared vocabulary of the river-monitoring model: optional values, results,
 the three severity bands every classifier produces, and the positive
 threshold a monitoring node is configured with.
 */
module Common {

  /** A value that may be absent (a missing JSON field, an unknown node). */
  datatype Option<+T> = None | Some(value: T) {
    /** The held value, or `default` when absent (JavaScript's `x || default`). */
    function GetOr(default: T): T
    {
      match this
      case Some(v) => v
      case None => default
    }
  }

  /** Either a computed value or an error description. */
  datatype Result<+R, +E> = Ok(value: R) | Err(error: E)

  /** The severity band of a water level. */
  datatype Status = Normal | Warning | Danger {
    /** Severity as a number, so that bands can be compared. */
    function Rank(): nat
    {
      match this
      case Normal => 0
      case Warning => 1
      case Danger => 2
    }

    /** True for the two bands that raise an alert. */
    predicate IsAlert()
    {
      Warning? || Danger?
    }
  }

  /** The smaller of two counts. */
  function Min(a: nat, b: nat): nat
  {
    if a <= b then a else b
  }

  /** A node's configured threshold (metres); every stored node has one above 0. */
  type Threshold = t: real | t > 0.0 witness 1.0
}

=== FILE: esp32.dfy ===
/**
 The current sensor ingestion route (`POST /reading`). One step validates the
 body, classifies the level against the fixed levels 3.5 m and 4.5 m, runs the
 alert-confirmation timer, records the reading in the node's live record and
 decides whether the durable write fires. The server clock (`now` in ms and
 its ISO text `timestamp`) is a parameter.
 */
module Esp32 {
  import opened Common
  import AlertTimer
  import LiveStore
  import Throttle

  /** Fixed level (m) at or above which a reading is a warning. */
  const WarningLevel: real := 3.5
  /** Fixed level (m) at or above which a reading is a danger. */
  const DangerLevel: real := 4.5

  /** The fixed-level classifier of the current route. */
  function Classify(waterLevel: real): (s: Status)
    ensures s == Danger <==> waterLevel >= DangerLevel
    ensures s == Warning <==> WarningLevel <= waterLevel < DangerLevel
    ensures s == Normal <==> waterLevel < WarningLevel
  {
    if waterLevel >= 4.5 then Danger
    else if waterLevel >= 3.5 then Warning
    else Normal
  }

  /** A higher level never gives a milder status. */
  lemma ClassifyMonotone(lower: real, higher: real)
    requires lower <= higher
    ensures Classify(lower).Rank() <= Classify(higher).Rank()
  {
  }

  /** The request body: `nodeId` and `waterLevel` may be absent. */
  datatype Body = Body(nodeId: Option<string>, waterLevel: Option<real>)

  /** The route rejects a falsy `nodeId` (absent or empty) and an absent `waterLevel`. */
  predicate Accepted(body: Body)
  {
    body.nodeId.Some? && body.nodeId.value != "" && body.waterLevel.Some?
  }

  /** The three per-node maps the route keeps between requests. */
  datatype State = State(
    alertTimers: AlertTimer.Timers,
    lastDbSave: Throttle.SaveTimes,
    liveData: LiveStore.LiveData)

  datatype Response =
    | BadRequest
    | Success(nodeId: string, timestamp: string, alertStatus: Status, confirmedAlert: bool)

  /** The state after a request, the reply, and whether a durable write was started. */
  datatype StepResult = StepResult(state: State, response: Response, persisted: bool)

  /** Handle one `POST /reading`. */
  function Step(st: State, body: Body, now: nat, timestamp: string): (r: StepResult)
    // a rejected body changes nothing and starts no write
    ensures !Accepted(body) <==> r.response.BadRequest?
    ensures !Accepted(body) ==> r.state == st && !r.persisted
    ensures Accepted(body) ==>
              var node := body.nodeId.value;
              var level := body.waterLevel.value;
              && r.response == Success(node, timestamp, Classify(level), r.response.confirmedAlert)
              // the node's live record now holds exactly this reading as current
              && node in r.state.liveData
              && r.state.liveData[node].current
                 == LiveStore.LiveReading(node, level, timestamp, Classify(level), r.response.confirmedAlert)
              && |r.state.liveData[node].history|
                 == Min(|LiveStore.PriorHistory(st.liveData, node)| + 1, LiveStore.HistoryLimit)
              && r.state.liveData[node].history[0] == r.state.liveData[node].current
              && r.state.liveData[node].history[1..]
                 == LiveStore.PriorHistory(st.liveData, node)[..|r.state.liveData[node].history| - 1]
              && r.state.liveData[node].lastUpdate == timestamp
              // timers: a normal reading has none, a non-normal one has its own status
              && (node in r.state.alertTimers <==> Classify(level).IsAlert())
              // a new or changed alert starts its timer at the server's clock
              && (AlertTimer.Restarts(st.alertTimers, node, Classify(level)) ==>
                    r.state.alertTimers[node] == AlertTimer.Timer(now, Classify(level)))
              // an unchanged alert keeps the timers as they were
              && (Classify(level).IsAlert() && !AlertTimer.Restarts(st.alertTimers, node, Classify(level)) ==>
                    r.state.alertTimers == st.alertTimers)
              // no other node's timer changes
              && AlertTimer.OthersUnchanged(st.alertTimers, r.state.alertTimers, node)
              // confirmation needs a timer for the same status that is at least 5 s old
              && (r.response.confirmedAlert <==>
                   Classify(level).IsAlert() && node in st.alertTimers
                   && st.alertTimers[node].status == Classify(level)
                   && now - st.alertTimers[node].startTime >= AlertTimer.ConfirmWindowMs)
              // the durable write fires iff 30 s passed since the last one (0 if never)
              && (r.persisted <==> now - Throttle.LastSave(st.lastDbSave, node) >= Throttle.WriteIntervalMs)
              && (r.persisted ==> r.state.lastDbSave == st.lastDbSave[node := now])
              && (!r.persisted ==> r.state.lastDbSave == st.lastDbSave)
  {
    if !Accepted(body) then
      StepResult(st, BadRequest, false)
    else
      var node := body.nodeId.value;
      var level := body.waterLevel.value;
      var status := Classify(level);
      var alert := AlertTimer.Track(st.alertTimers, node, status, now, AlertTimer.ConfirmWindowMs);
      var reading := LiveStore.LiveReading(node, level, timestamp, status, alert.confirmed);
      var live := LiveStore.Record(st.liveData, reading, timestamp);
      var save := Throttle.MaybePersist(st.lastDbSave, node, now);
      StepResult(
        State(alert.timers, save.lastDbSave, live),
        Success(node, timestamp, status, alert.confirmed),
        save.persist)
  }

  /** A level of 0 is a valid reading: only an absent level is rejected. */
  lemma ZeroLevelAccepted(st: State, node: string, now: nat, timestamp: string)
    requires node != ""
    ensures Step(st, Body(Some(node), Some(0.0)), now, timestamp).response
            == Success(node, timestamp, Normal, false)
  {
  }

  /** Readings of one node leave every other node's timer, save time and live record alone. */
  lemma OtherNodesUntouched(st: State, body: Body, now: nat, timestamp: string, other: string)
    requires Accepted(body) && other != body.nodeId.value
    ensures var s' := Step(st, body, now, timestamp).state;
            && (other in s'.alertTimers <==> other in st.alertTimers)
            && (other in st.alertTimers ==> s'.alertTimers[other] == st.alertTimers[other])
            && Throttle.LastSave(s'.lastDbSave, other) == Throttle.LastSave(st.lastDbSave, other)
            && (other in s'.liveData <==> other in st.liveData)
            && (other in st.liveData ==> s'.liveData[other] == st.liveData[other])
  {
  }

  /** The invariants of the three maps: timers only for alerts, bounded histories. */
  ghost predicate Invariant(st: State)
  {
    AlertTimer.WellFormed(st.alertTimers) && LiveStore.Bounded(st.liveData)
  }

  /** Every request keeps the invariant. */
  lemma StepKeepsInvariant(st: State, body: Body, now: nat, timestamp: string)
    requires Invariant(st)
    ensures Invariant(Step(st, body, now, timestamp).state)
  {
  }

  /**
   A first reading of a new node: the live endpoint then shows it with a
   history of exactly that reading.
   */
  lemma NewNodeVisible(st: State, node: string, level: real, now: nat, timestamp: string)
    requires node != "" && node !in st.liveData
    ensures var r := Step(st, Body(Some(node), Some(level)), now, timestamp);
            r.state.liveData[node].history == [r.state.liveData[node].current]
  {
    var r := Step(st, Body(Some(node), Some(level)), now, timestamp);
    LiveStore.FirstReading(st.liveData, r.state.liveData[node].current, timestamp);
  }

  /** What a request leaves behind: the step's result and the live-data file afterwards. */
  datatype FileStepResult = FileStepResult(step: StepResult, file: LiveStore.Snapshot)

  /**
   One request as the route performs it on disk: the live map is read from the
   snapshot file (an absent or unparsable file reads as empty), the step runs on
   it, and an accepted reading writes the whole map back. Only the timers and
   save times of `st` are kept in memory; its `liveData` is not consulted.
   */
  function StepWithFile(st: State, file: LiveStore.Snapshot, body: Body, now: nat, timestamp: string)
    : (r: FileStepResult)
    // a rejected body neither reads nor writes the file
    ensures !Accepted(body) ==>
              r.file == file && r.step.response.BadRequest? && !r.step.persisted
              && r.step.state.alertTimers == st.alertTimers && r.step.state.lastDbSave == st.lastDbSave
    // an accepted one writes back exactly the map the step produced
    ensures Accepted(body) ==> r.file == LiveStore.Present(Some(r.step.state.liveData))
    // the reply, the timers and the throttle come from memory alone: the file does not affect them
    ensures var s := Step(st, body, now, timestamp);
            && r.step.response == s.response && r.step.persisted == s.persisted
            && r.step.state.alertTimers == s.state.alertTimers
            && r.step.state.lastDbSave == s.state.lastDbSave
    // the node's own record holds the reading ahead of the history the file held for it
    ensures Accepted(body) ==>
              var node := body.nodeId.value;
              var level := body.waterLevel.value;
              var prior := LiveStore.PriorHistory(LiveStore.LoadSnapshot(file), node);
              && r.step.response == Success(node, timestamp, Classify(level), r.step.response.confirmedAlert)
              && node in r.step.state.liveData
              && r.step.state.liveData[node].current
                 == LiveStore.LiveReading(node, level, timestamp, Classify(level), r.step.response.confirmedAlert)
              && r.step.state.liveData[node].lastUpdate == timestamp
              && |r.step.state.liveData[node].history| == Min(|prior| + 1, LiveStore.HistoryLimit)
              && r.step.state.liveData[node].history[0] == r.step.state.liveData[node].current
              && r.step.state.liveData[node].history[1..]
                 == prior[..|r.step.state.liveData[node].history| - 1]
    // every other node keeps what the file held for it, and nothing more
    ensures Accepted(body) ==>
              forall other :: other != body.nodeId.value ==>
                (other in r.step.state.liveData <==> other in LiveStore.LoadSnapshot(file))
                && (other in r.step.state.liveData ==>
                      r.step.state.liveData[other] == LiveStore.LoadSnapshot(file)[other])
    // so an absent or unparsable file loses every other node's record
    ensures Accepted(body) && (file.Missing? || file.parsed.None?) ==>
              r.step.state.liveData.Keys == {body.nodeId.value}
  {
    var step := Step(st.(liveData := LiveStore.LoadSnapshot(file)), body, now, timestamp);
    if Accepted(body) then FileStepResult(step, LiveStore.Present(Some(step.state.liveData)))
    else FileStepResult(step, file)
  }

  /**
   While the file holds what the previous request wrote, reading it back gives
   the same map as threading the state in memory, so `Step` describes every
   request of an undisturbed run.
   */
  lemma FileAgreesWithThreadedState(st: State, body: Body, now: nat, timestamp: string)
    ensures var r := StepWithFile(st, LiveStore.Present(Some(st.liveData)), body, now, timestamp);
            && r.step == Step(st, body, now, timestamp)
            && (Accepted(body) ==> r.file == LiveStore.Present(Some(r.step.state.liveData)))
  {
    assert st.(liveData := LiveStore.LoadSnapshot(LiveStore.Present(Some(st.liveData)))) == st;
  }

  /** The state the server starts from: no timers, no saves, the snapshot's live map. */
  function Initial(snapshot: LiveStore.Snapshot): (st: State)
    ensures st.alertTimers == map[] && st.lastDbSave == map[]
    ensures snapshot.Missing? ==> st.liveData == map[]
  {
    State(map[], map[], LiveStore.LoadSnapshot(snapshot))
  }
}

=== FILE: esp32_old.dfy ===
/**
 The older sensor ingestion route. It keeps the same alert timer and write
 throttle as the current route, but classifies a reading against its node's
 own threshold (70% / 90%), lets the sensor supply the timestamp, and pushes
 every accepted reading to the registered live-feed clients.
 The node lookup in the durable store, each client's connection state and the
 server clock are parameters.
 */
module Esp32Old {
  import opened Common
  import NodeStatus
  import AlertTimer
  import Throttle
  import Esp32

  /** Percentage classifier: an unknown node (no threshold found) is normal. */
  function Classify(waterLevel: real, threshold: Option<Threshold>): (s: Status)
    ensures threshold.None? ==> s == Normal
    ensures threshold.Some? ==>
              && (s == Danger <==> waterLevel >= 0.9 * threshold.value)
              && (s == Warning <==> 0.7 * threshold.value <= waterLevel < 0.9 * threshold.value)
              && (s == Normal <==> waterLevel < 0.7 * threshold.value)
  {
    match threshold
    case None => Normal
    case Some(t) =>
      NodeStatus.PercentageAtLeast(waterLevel, t, 90.0);
      NodeStatus.PercentageAtLeast(waterLevel, t, 70.0);
      var percentage := waterLevel / t * 100.0;
      if percentage >= 90.0 then Danger
      else if percentage >= 70.0 then Warning
      else Normal
  }

  /** For a known node the route agrees with the dashboard's status rule. */
  lemma ClassifyMatchesClient(waterLevel: real, t: Threshold)
    ensures Classify(waterLevel, Some(t)) == NodeStatus.GetNodeStatus(waterLevel, t)
  {
  }

  // ---------------------------------------------------------------------------
  // Live-feed client registry

  /** A live-feed connection, compared by identity. */
  type ClientId = nat

  /** The WebSocket `readyState` of an open connection. */
  const Open: int := 1

  /** Registering appends the client to the list. */
  function Register(clients: seq<ClientId>, ws: ClientId): (clients': seq<ClientId>)
    ensures |clients'| == |clients| + 1
    ensures clients'[..|clients|] == clients && clients'[|clients|] == ws
  {
    clients + [ws]
  }

  /** The close handler: drop every entry that is this client, keep the others in order. */
  function Close(clients: seq<ClientId>, ws: ClientId): (clients': seq<ClientId>)
    ensures ws !in clients'
    ensures forall c :: c != ws ==> (c in clients' <==> c in clients)
    ensures |clients'| <= |clients|
    decreases |clients|
  {
    if clients == [] then []
    else if clients[0] != ws then [clients[0]] + Close(clients[1..], ws)
    else Close(clients[1..], ws)
  }

  /** A client that was not registered before is gone again after its close. */
  lemma {:induction false} CloseUndoesRegister(clients: seq<ClientId>, ws: ClientId)
    requires ws !in clients
    ensures Close(Register(clients, ws), ws) == clients
    decreases |clients|
  {
    if clients != [] {
      assert Register(clients, ws)[1..] == Register(clients[1..], ws);
      CloseUndoesRegister(clients[1..], ws);
    }
  }

  /** One send of a serialized message to one client. */
  datatype Delivery = Delivery(client: ClientId, message: string)

  /**
   Send `message` to every registered client whose connection is open, in
   registration order; the others are skipped, not removed.
   */
  function Broadcast(clients: seq<ClientId>, readyState: ClientId -> int, message: string): (sent: seq<Delivery>)
    ensures forall d :: d in sent ==> d.message == message
    ensures forall c :: (Delivery(c, message) in sent <==> c in clients && readyState(c) == Open)
    ensures |sent| <= |clients|
    decreases |clients|
  {
    if clients == [] then []
    else
      var rest := Broadcast(clients[1..], readyState, message);
      if readyState(clients[0]) == Open then [Delivery(clients[0], message)] + rest else rest
  }

  /** A closed client receives nothing, and the open ones still do. */
  lemma ClosedClientSkipped(clients: seq<ClientId>, readyState: ClientId -> int, message: string, gone: ClientId)
    ensures Delivery(gone, message) !in Broadcast(Close(clients, gone), readyState, message)
    ensures forall c :: c != gone && c in clients && readyState(c) == Open ==>
              Delivery(c, message) in Broadcast(Close(clients, gone), readyState, message)
  {
  }

  // ---------------------------------------------------------------------------
  // The request

  /** The request body; the sensor may supply its own timestamp. */
  datatype Body = Body(nodeId: Option<string>, waterLevel: Option<real>, timestamp: Option<string>)

  /** The same required-field rule as the current route. */
  predicate Accepted(body: Body)
  {
    Esp32.Accepted(Esp32.Body(body.nodeId, body.waterLevel))
  }

  /** The supplied timestamp when it is present and non-empty, else the server's. */
  function ReplyTimestamp(body: Body, serverTime: string): (ts: string)
    ensures body.timestamp.Some? && body.timestamp.value != "" ==> ts == body.timestamp.value
    ensures body.timestamp.None? || body.timestamp.value == "" ==> ts == serverTime
  {
    if body.timestamp.Some? && body.timestamp.value != "" then body.timestamp.value else serverTime
  }

  datatype State = State(
    alertTimers: AlertTimer.Timers,
    lastDbSave: Throttle.SaveTimes,
    clients: seq<ClientId>)

  datatype Response =
    | BadRequest
    | Success(nodeId: string, timestamp: string, alertStatus: Status, confirmedAlert: bool)

  datatype StepResult = StepResult(state: State, response: Response, sent: seq<Delivery>, persisted: bool)

  /** The pushed `live_reading` message, serialized once for every client. */
  function LiveMessage(node: string, level: real, timestamp: string, status: Status, confirmed: bool,
                       serialize: (string, real, string, Status, bool) -> string): string
  {
    serialize(node, level, timestamp, status, confirmed)
  }

  /**
   Handle one `POST /reading`. `threshold` is what the node lookup returned,
   `now` and `serverTime` are the server clock, `serialize` stands for the
   JSON encoding of the pushed message.
   */
  function Step(st: State, body: Body, threshold: Option<Threshold>, readyState: ClientId -> int,
                now: nat, serverTime: string,
                serialize: (string, real, string, Status, bool) -> string): (r: StepResult)
    ensures !Accepted(body) <==> r.response.BadRequest?
    ensures !Accepted(body) ==> r.state == st && r.sent == [] && !r.persisted
    ensures Accepted(body) ==>
              var node := body.nodeId.value;
              var level := body.waterLevel.value;
              var status := Classify(level, threshold);
              && r.response.Success?
              && r.response.nodeId == node
              && r.response.timestamp == ReplyTimestamp(body, serverTime)
              && r.response.alertStatus == status
              // the client list is not changed by a reading
              && r.state.clients == st.clients
              // a new or changed alert restarts the timer at the server's clock and is not confirmed
              && (AlertTimer.Restarts(st.alertTimers, node, status) ==>
                    node in r.state.alertTimers && r.state.alertTimers[node] == AlertTimer.Timer(now, status)
                    && !r.response.confirmedAlert)
              // an unchanged alert keeps its timer and is confirmed iff 5 s have passed since it started
              && (status.IsAlert() && !AlertTimer.Restarts(st.alertTimers, node, status) ==>
                    r.state.alertTimers == st.alertTimers
                    && (r.response.confirmedAlert <==>
                          now - st.alertTimers[node].startTime >= AlertTimer.ConfirmWindowMs))
              // no other node's timer changes
              && AlertTimer.OthersUnchanged(st.alertTimers, r.state.alertTimers, node)
              // a normal reading deletes the timer
              && (!status.IsAlert() ==> node !in r.state.alertTimers && !r.response.confirmedAlert)
              // every open client gets the reading with its band, reply timestamp and confirmation
              && (forall d :: d in r.sent ==>
                    d.message == LiveMessage(node, level, r.response.timestamp, status,
                                             r.response.confirmedAlert, serialize))
              && (forall c :: c in st.clients && readyState(c) == Open <==> exists d :: d in r.sent && d.client == c)
              && (r.persisted <==> now - Throttle.LastSave(st.lastDbSave, node) >= Throttle.WriteIntervalMs)
              && (r.persisted ==> r.state.lastDbSave == st.lastDbSave[node := now])
              && (!r.persisted ==> r.state.lastDbSave == st.lastDbSave)
  {
    if !Accepted(body) then
      StepResult(st, BadRequest, [], false)
    else
      var node := body.nodeId.value;
      var level := body.waterLevel.value;
      var timestamp := ReplyTimestamp(body, serverTime);
      var status := Classify(level, threshold);
      var alert := AlertTimer.TrackOld(st.alertTimers, node, status, now, AlertTimer.ConfirmWindowMs);
      var message := LiveMessage(node, level, timestamp, status, alert.confirmed, serialize);
      var sent := Broadcast(st.clients, readyState, message);
      assert forall c :: c in st.clients && readyState(c) == Open ==> Delivery(c, message) in sent;
      var save := Throttle.MaybePersist(st.lastDbSave, node, now);
      StepResult(
        State(alert.timers, save.lastDbSave, st.clients),
        Success(node, timestamp, status, alert.confirmed),
        sent,
        save.persist)
  }

  /** The timer runs on the server clock: a supplied timestamp changes only the reply. */
  lemma SuppliedTimestampIgnoredByTimer(st: State, body: Body, ts: string, threshold: Option<Threshold>,
                                        readyState: ClientId -> int, now: nat, serverTime: string,
                                        serialize: (string, real, string, Status, bool) -> string)
    requires Accepted(body)
    ensures var a := Step(st, body, threshold, readyState, now, serverTime, serialize);
            var b := Step(st, body.(timestamp := Some(ts)), threshold, readyState, now, serverTime, serialize);
            a.state == b.state && a.persisted == b.persisted
            && a.response.confirmedAlert == b.response.confirmedAlert
  {
  }
}

=== FILE: live_feed.dfy ===
/**
 The live-feed page's state update: each pushed `live_reading` message
 updates a map from node to its latest reading, a sliding window of its last
 30 levels and a reading count; the page also colours levels by fixed bands.
 The client clock (`seenAt`) is a parameter.
 */
module LiveFeed {
  import opened Common

  /** Levels kept per node for the sparkline. */
  const HistoryWindow: nat := 30

  /** A reading as pushed on the live channel. */
  datatype FeedReading = FeedReading(nodeId: string, waterLevel: real, timestamp: string)

  datatype NodeData = NodeData(
    nodeId: string,
    latestReading: FeedReading,
    history: seq<real>,
    readingCount: nat,
    lastSeen: nat)

  /** A message on the live channel; only `live_reading` changes the page. */
  datatype Message = Connected | LiveReadingMessage(data: FeedReading) | OtherMessage

  /** The last `k` elements of `xs` (all of them when there are fewer). */
  function KeepLast(xs: seq<real>, k: nat): (ys: seq<real>)
    ensures |ys| == Min(|xs|, k)
    ensures ys == xs[|xs| - |ys|..]
  {
    if |xs| <= k then xs else xs[|xs| - k..]
  }

  /** Record one pushed reading. */
  function ApplyReading(nodes: map<string, NodeData>, r: FeedReading, seenAt: nat): (nodes': map<string, NodeData>)
    ensures nodes'.Keys == nodes.Keys + {r.nodeId}
    ensures forall n :: n in nodes && n != r.nodeId ==> nodes'[n] == nodes[n]
    ensures var d := nodes'[r.nodeId];
            && d.nodeId == r.nodeId && d.latestReading == r && d.lastSeen == seenAt
            && 1 <= |d.history| <= HistoryWindow
            && d.history[|d.history| - 1] == r.waterLevel
    // an existing node appends the level to its window and counts one more reading
    ensures r.nodeId in nodes ==>
              var prior := nodes[r.nodeId].history;
              var d := nodes'[r.nodeId];
              && |d.history| == Min(|prior| + 1, HistoryWindow)
              && d.history[..|d.history| - 1] == prior[|prior| + 1 - |d.history|..]
              && d.readingCount == nodes[r.nodeId].readingCount + 1
    // a first-seen node starts with just this level and a count of one
    ensures r.nodeId !in nodes ==> nodes'[r.nodeId].history == [r.waterLevel] && nodes'[r.nodeId].readingCount == 1
  {
    if r.nodeId in nodes then
      var existing := nodes[r.nodeId];
      var history := KeepLast(existing.history + [r.waterLevel], HistoryWindow);
      assert history[|history| - 1] == (existing.history + [r.waterLevel])[|existing.history|];
      nodes[r.nodeId := NodeData(r.nodeId, r, history, existing.readingCount + 1, seenAt)]
    else
      nodes[r.nodeId := NodeData(r.nodeId, r, [r.waterLevel], 1, seenAt)]
  }

  /** The page state after a run of pushed readings, applied in order. */
  function Feed(nodes: map<string, NodeData>, rs: seq<FeedReading>, seenAt: nat): map<string, NodeData>
  {
    if rs == [] then nodes
    else ApplyReading(Feed(nodes, rs[..|rs| - 1], seenAt), rs[|rs| - 1], seenAt)
  }

  /** The levels of a run of readings. */
  function Levels(rs: seq<FeedReading>): (ls: seq<real>)
    ensures |ls| == |rs|
    ensures forall i :: 0 <= i < |rs| ==> ls[i] == rs[i].waterLevel
  {
    seq(|rs|, i requires 0 <= i < |rs| => rs[i].waterLevel)
  }

  /** Trimming before appending makes no difference to what is kept. */
  lemma KeepLastAppend(xs: seq<real>, x: real, k: nat)
    requires k > 0
    ensures KeepLast(KeepLast(xs, k) + [x], k) == KeepLast(xs + [x], k)
  {
    var ys := KeepLast(xs, k);
    var lhs := KeepLast(ys + [x], k);
    var rhs := KeepLast(xs + [x], k);
    assert |lhs| == |rhs|;
    forall i | 0 <= i < |lhs|
      ensures lhs[i] == rhs[i]
    {
      if i == |lhs| - 1 {
        assert lhs[i] == x == rhs[i];
      } else {
        assert lhs[i] == ys[|ys| + 1 - |lhs| + i];
        assert rhs[i] == xs[|xs| + 1 - |rhs| + i];
      }
    }
  }

  /**
   For a node first seen in a run of readings, its window holds exactly the
   last (up to 30) levels of the run and its count is the run's length.
   */
  lemma {:induction false} WindowHoldsNewest(nodes: map<string, NodeData>, node: string, rs: seq<FeedReading>, seenAt: nat)
    requires node !in nodes && |rs| > 0
    requires forall i :: 0 <= i < |rs| ==> rs[i].nodeId == node
    ensures node in Feed(nodes, rs, seenAt)
    ensures Feed(nodes, rs, seenAt)[node].history == KeepLast(Levels(rs), HistoryWindow)
    ensures Feed(nodes, rs, seenAt)[node].readingCount == |rs|
    decreases |rs|
  {
    var init := rs[..|rs| - 1];
    var last := rs[|rs| - 1];
    assert Levels(rs) == Levels(init) + [last.waterLevel];
    if init == [] {
      assert Levels(rs) == [last.waterLevel];
    } else {
      WindowHoldsNewest(nodes, node, init, seenAt);
      var before := Feed(nodes, init, seenAt);
      var prior := before[node].history;
      assert Feed(nodes, rs, seenAt)[node].history == KeepLast(prior + [last.waterLevel], HistoryWindow);
      KeepLastAppend(Levels(init), last.waterLevel, HistoryWindow);
    }
  }

  // ---------------------------------------------------------------------------
  // Page state with node selection

  datatype Page = Page(nodes: map<string, NodeData>, selected: Option<string>)

  /**
   The message handler as written: it tests the selection captured when the
   connection was opened (always none), so every first-seen node takes the
   selection, even one the user chose.
   */
  function OnMessageAsWritten(page: Page, m: Message, seenAt: nat): (page': Page)
    ensures !m.LiveReadingMessage? ==> page' == page
    ensures m.LiveReadingMessage? && m.data.nodeId !in page.nodes ==> page'.selected == Some(m.data.nodeId)
  {
    var capturedSelection: Option<string> := None;
    match m
    case LiveReadingMessage(r) =>
      var selected := if r.nodeId !in page.nodes && capturedSelection.None? then Some(r.nodeId) else page.selected;
      Page(ApplyReading(page.nodes, r, seenAt), selected)
    case _ => page
  }

  /** The intended handler: auto-select the first node only while nothing is selected. */
  function OnMessage(page: Page, m: Message, seenAt: nat): (page': Page)
    ensures !m.LiveReadingMessage? ==> page' == page
    ensures m.LiveReadingMessage? ==> page'.nodes == ApplyReading(page.nodes, m.data, seenAt)
    // a selection, once made, is never changed by incoming readings
    ensures page.selected.Some? ==> page'.selected == page.selected
    ensures page.selected.None? && m.LiveReadingMessage? && m.data.nodeId !in page.nodes ==>
              page'.selected == Some(m.data.nodeId)
  {
    match m
    case LiveReadingMessage(r) =>
      var selected := if r.nodeId !in page.nodes && page.selected.None? then Some(r.nodeId) else page.selected;
      Page(ApplyReading(page.nodes, r, seenAt), selected)
    case _ => page
  }

  /** As written, a second new node steals the selection from the first. */
  lemma SelectionStolenAsWritten(a: FeedReading, b: FeedReading, seenAt: nat)
    requires a.nodeId != b.nodeId
    ensures var p := OnMessageAsWritten(Page(map[], None), LiveReadingMessage(a), seenAt);
            OnMessageAsWritten(p, LiveReadingMessage(b), seenAt).selected == Some(b.nodeId)
  {
  }

  /** As intended, the first node stays selected. */
  lemma SelectionKept(a: FeedReading, b: FeedReading, seenAt: nat)
    requires a.nodeId != b.nodeId
    ensures var p := OnMessage(Page(map[], None), LiveReadingMessage(a), seenAt);
            OnMessage(p, LiveReadingMessage(b), seenAt).selected == Some(a.nodeId)
  {
  }

  // ---------------------------------------------------------------------------
  // Level colour

  datatype Colour = Green | Yellow | Red
  {
    /** Severity order of the colours: green, then yellow, then red. */
    function Rank(): nat
    {
      match this
      case Green => 0
      case Yellow => 1
      case Red => 2
    }
  }

  /** Red above 5 m, yellow above 3 m, green otherwise (both bounds strict). */
  function WaterLevelColour(level: real): (c: Colour)
    ensures c == Red <==> level > 5.0
    ensures c == Yellow <==> 3.0 < level <= 5.0
    ensures c == Green <==> level <= 3.0
  {
    if level > 5.0 then Red
    else if level > 3.0 then Yellow
    else Green
  }

  /** A higher level never gets a milder colour. */
  lemma ColourMonotone(lower: real, higher: real)
    requires lower <= higher
    ensures WaterLevelColour(lower).Rank() <= WaterLevelColour(higher).Rank()
  {
  }
}

=== FILE: live_store.dfy ===
/**
 The per-node live record kept by the ingestion route: the current reading, a
 most-recent-first history bounded at 600 entries, and the time of the last
 update. The whole map is written to a snapshot after every reading and read
 back from it; a missing or unreadable snapshot reads as the empty map.
 */
module LiveStore {
  import opened Common

  /** Readings kept per node (10 minutes at one reading per second). */
  const HistoryLimit: nat := 600

  /** A reading as stored and served by the live endpoint. */
  datatype LiveReading = LiveReading(
    nodeId: string,
    waterLevel: real,
    timestamp: string,
    alertStatus: Status,
    confirmedAlert: bool)

  datatype NodeLiveRecord = NodeLiveRecord(
    current: LiveReading,
    history: seq<LiveReading>,
    lastUpdate: string)

  type LiveData = map<string, NodeLiveRecord>

  /** The history a node had before a reading (none for a first-seen node). */
  function PriorHistory(live: LiveData, node: string): seq<LiveReading>
  {
    if node in live then live[node].history else []
  }

  /** Every node's history respects the bound. */
  ghost predicate Bounded(live: LiveData)
  {
    forall n :: n in live ==> |live[n].history| <= HistoryLimit
  }

  /**
   Store `reading` as its node's current reading, put it at the front of the
   history and drop whatever falls beyond the bound.
   */
  function Record(live: LiveData, reading: LiveReading, timestamp: string): (live': LiveData)
    ensures live'.Keys == live.Keys + {reading.nodeId}
    ensures forall n :: n in live && n != reading.nodeId ==> live'[n] == live[n]
    ensures Bounded(live) ==> Bounded(live')
    ensures var rec := live'[reading.nodeId];
            var prior := PriorHistory(live, reading.nodeId);
            && rec.current == reading
            && rec.lastUpdate == timestamp
            && |rec.history| == Min(|prior| + 1, HistoryLimit)
            && rec.history[0] == reading
            // the rest of the history is the newest part of the previous history
            && rec.history[1..] == prior[..|rec.history| - 1]
  {
    var node := reading.nodeId;
    var history := [reading] + PriorHistory(live, node);
    var kept := if |history| > HistoryLimit then history[..HistoryLimit] else history;
    live[node := NodeLiveRecord(reading, kept, timestamp)]
  }

  /** A node seen for the first time has exactly the posted reading in its history. */
  lemma FirstReading(live: LiveData, reading: LiveReading, timestamp: string)
    requires reading.nodeId !in live
    ensures Record(live, reading, timestamp)[reading.nodeId].history == [reading]
  {
    var h := Record(live, reading, timestamp)[reading.nodeId].history;
    assert |h| == 1;
  }

  /** The `k` newest readings of `rs` (or all of them), newest first. */
  function Newest(rs: seq<LiveReading>, k: nat): (out: seq<LiveReading>)
    ensures |out| == Min(|rs|, k)
  {
    if rs == [] || k == 0 then []
    else [rs[|rs| - 1]] + Newest(rs[..|rs| - 1], k - 1)
  }

  /** Taking fewer of the newest readings gives a prefix. */
  lemma {:induction false} NewestPrefix(rs: seq<LiveReading>, k: nat)
    requires k > 0
    ensures Newest(rs, k - 1) == Newest(rs, k)[..Min(|rs|, k - 1)]
  {
    if rs != [] && k > 1 {
      NewestPrefix(rs[..|rs| - 1], k - 1);
    }
  }

  /** The live map after recording `rs` one after another, each at its own timestamp. */
  function Replay(live: LiveData, rs: seq<LiveReading>): LiveData
  {
    if rs == [] then live
    else
      var last := rs[|rs| - 1];
      Record(Replay(live, rs[..|rs| - 1]), last, last.timestamp)
  }

  /** A history that starts with the newest reading and continues with the newest of the rest. */
  lemma PrependNewest(rs: seq<LiveReading>, h: seq<LiveReading>)
    requires |rs| > 0
    requires |h| == Min(|rs|, HistoryLimit)
    requires h[0] == rs[|rs| - 1]
    requires h[1..] == Newest(rs[..|rs| - 1], HistoryLimit)[..|h| - 1]
    ensures h == Newest(rs, HistoryLimit)
  {
    var init := rs[..|rs| - 1];
    NewestPrefix(init, HistoryLimit);
    assert Newest(rs, HistoryLimit) == [rs[|rs| - 1]] + Newest(init, HistoryLimit - 1);
    assert h == [h[0]] + h[1..];
  }

  /**
   Whatever the burst of readings, a node's history holds exactly its newest
   600 readings (or all of them when there are fewer), most recent first.
   */
  lemma {:induction false} HistoryHoldsNewest(live: LiveData, node: string, rs: seq<LiveReading>)
    requires node !in live
    requires |rs| > 0
    requires forall i :: 0 <= i < |rs| ==> rs[i].nodeId == node
    ensures node in Replay(live, rs)
    ensures Replay(live, rs)[node].history == Newest(rs, HistoryLimit)
    decreases |rs|
  {
    var init := rs[..|rs| - 1];
    var last := rs[|rs| - 1];
    var before := Replay(live, init);
    if init != [] {
      HistoryHoldsNewest(live, node, init);
    }
    assert PriorHistory(before, node) == Newest(init, HistoryLimit);
    var h := Record(before, last, last.timestamp)[node].history;
    PrependNewest(rs, h);
  }

  /** What the snapshot file yields: absent, or present and parsed (or not). */
  datatype Snapshot = Missing | Present(parsed: Option<LiveData>)

  /** Loading the snapshot never fails: anything unusable reads as the empty map. */
  function LoadSnapshot(snapshot: Snapshot): (live: LiveData)
    ensures snapshot.Missing? ==> live == map[]
    ensures snapshot.Present? && snapshot.parsed.None? ==> live == map[]
    ensures snapshot.Present? && snapshot.parsed.Some? ==> live == snapshot.parsed.value
  {
    match snapshot
    case Missing => map[]
    case Present(parsed) => parsed.GetOr(map[])
  }
}

=== FILE: map_view.dfy ===
/**
 The map page: it patches the node a pushed reading names, derives each
 node's change between its two newest durable readings, lists the five most
 recent significant changes and counts nodes per status. The durable store's
 answers and the parsing of timestamps to milliseconds are parameters.
 */
module MapView {
  import opened Common
  import NodeStatus
  import LiveFeed
  import opened NodeRecords

  /** Patch every node whose name is the reading's node; leave the rest as they are. */
  function MergeLive(nodes: seq<NodeWithReading>, r: LiveFeed.FeedReading): (out: seq<NodeWithReading>)
    ensures |out| == |nodes|
    ensures forall i :: 0 <= i < |nodes| && nodes[i].name != r.nodeId ==> out[i] == nodes[i]
    ensures forall i :: 0 <= i < |nodes| && nodes[i].name == r.nodeId ==>
              && out[i].nodeId == nodes[i].nodeId && out[i].name == nodes[i].name
              && out[i].threshold == nodes[i].threshold
              && out[i].latestReading.Some?
              && out[i].latestReading.value.waterLevel == r.waterLevel
              && out[i].latestReading.value.timestamp == r.timestamp
              && out[i].latestReading.value.columns
                 == (if nodes[i].latestReading.Some? then nodes[i].latestReading.value.columns else None)
              && out[i].status == Some(NodeStatus.GetNodeStatus(r.waterLevel, nodes[i].threshold))
  {
    seq(|nodes|, i requires 0 <= i < |nodes| =>
      if nodes[i].name == r.nodeId then WithLiveReading(nodes[i], r.waterLevel, r.timestamp) else nodes[i])
  }

  /** A reading for a node the map does not list changes nothing. */
  lemma MergeUnknownNode(nodes: seq<NodeWithReading>, r: LiveFeed.FeedReading)
    requires forall i :: 0 <= i < |nodes| ==> nodes[i].name != r.nodeId
    ensures MergeLive(nodes, r) == nodes
  {
  }

  // ---------------------------------------------------------------------------
  // Change between the two newest readings

  /** Latest minus previous level when both readings exist, else 0. */
  function Change(latest: Option<Reading>, previous: Option<Reading>): (c: real)
    ensures latest.None? || previous.None? ==> c == 0.0
    ensures latest.Some? && previous.Some? ==> previous.value.waterLevel + c == latest.value.waterLevel
  {
    if latest.Some? && previous.Some? then latest.value.waterLevel - previous.value.waterLevel else 0.0
  }

  /** A node as fetched with its change. */
  datatype MapNode = MapNode(node: NodeWithReading, change: real)

  /** Build a node from its (at most two, newest first) stored readings. */
  function FetchedNode(node: NodeWithReading, newestTwo: seq<Reading>): (m: MapNode)
    requires |newestTwo| <= 2
    // the node keeps its identity and threshold
    ensures m.node.nodeId == node.nodeId && m.node.name == node.name && m.node.threshold == node.threshold
    ensures m.node.latestReading == (if |newestTwo| > 0 then Some(newestTwo[0]) else None)
    ensures |newestTwo| < 2 ==> m.change == 0.0
    ensures |newestTwo| == 2 ==> m.change == newestTwo[0].waterLevel - newestTwo[1].waterLevel
    ensures m.node.status == Some(if |newestTwo| > 0
                                  then NodeStatus.GetNodeStatus(newestTwo[0].waterLevel, node.threshold)
                                  else Normal)
  {
    var latest := if |newestTwo| > 0 then Some(newestTwo[0]) else None;
    var previous := if |newestTwo| > 1 then Some(newestTwo[1]) else None;
    var status := if latest.Some? then NodeStatus.GetNodeStatus(latest.value.waterLevel, node.threshold) else Normal;
    MapNode(node.(latestReading := latest, status := Some(status)), Change(latest, previous))
  }

  // ---------------------------------------------------------------------------
  // Recent updates

  /** An entry of the recent-updates panel; `time` is the reading's time in ms. */
  datatype Update = Update(nodeName: string, change: real, waterLevel: real, time: int)

  /** Entries shown at most. */
  const MaxRecent: nat := 5
  /** A change counts when its size exceeds this (m). */
  const SignificantChange: real := 0.05

  function Abs(x: real): real
  {
    if x < 0.0 then -x else x
  }

  /** A node with a reading whose change is larger than 5 cm either way. */
  predicate Significant(m: MapNode)
  {
    m.node.latestReading.Some? && Abs(m.change) > SignificantChange
  }

  /**
   A fetched node is a significant change exactly when it has two stored
   readings whose levels differ by more than 5 cm.
   */
  lemma SignificantIffReadingsDiffer(node: NodeWithReading, newestTwo: seq<Reading>)
    requires |newestTwo| <= 2
    ensures Significant(FetchedNode(node, newestTwo)) <==>
              |newestTwo| == 2 && Abs(newestTwo[0].waterLevel - newestTwo[1].waterLevel) > SignificantChange
  {
  }

  /** The panel entries of the significant nodes, in list order. */
  function Entries(nodes: seq<MapNode>, toMillis: string -> int): seq<Update>
    decreases |nodes|
  {
    if nodes == [] then []
    else
      (if Significant(nodes[0]) then [ToUpdate(nodes[0], toMillis)] else []) + Entries(nodes[1..], toMillis)
  }

  /** The entries come from significant nodes, and every significant node has one. */
  lemma {:induction false} EntriesMembers(nodes: seq<MapNode>, toMillis: string -> int)
    ensures |Entries(nodes, toMillis)| <= |nodes|
    ensures forall u :: u in Entries(nodes, toMillis) ==>
              exists m :: m in nodes && Significant(m) && u == ToUpdate(m, toMillis)
    ensures forall m :: m in nodes && Significant(m) ==> ToUpdate(m, toMillis) in Entries(nodes, toMillis)
    decreases |nodes|
  {
    if nodes != [] {
      EntriesMembers(nodes[1..], toMillis);
      assert forall m :: m in nodes[1..] ==> m in nodes;
      assert forall m :: m in nodes ==> m == nodes[0] || m in nodes[1..];
    }
  }

  /** Splitting the node list splits the entries the same way. */
  lemma {:induction false} EntriesAppend(a: seq<MapNode>, b: seq<MapNode>, toMillis: string -> int)
    ensures Entries(a + b, toMillis) == Entries(a, toMillis) + Entries(b, toMillis)
    decreases |a|
  {
    if a == [] {
      assert a + b == b;
    } else {
      var head := if Significant(a[0]) then [ToUpdate(a[0], toMillis)] else [];
      assert (a + b)[0] == a[0];
      assert (a + b)[1..] == a[1..] + b;
      EntriesAppend(a[1..], b, toMillis);
      calc {
        Entries(a + b, toMillis);
        head + Entries(a[1..] + b, toMillis);
        head + (Entries(a[1..], toMillis) + Entries(b, toMillis));
        (head + Entries(a[1..], toMillis)) + Entries(b, toMillis);
      }
    }
  }

  /** The candidates for the recent-updates panel. */
  function Candidates(nodes: seq<MapNode>, toMillis: string -> int): (us: seq<Update>)
    ensures |us| <= |nodes|
    ensures forall u :: u in us ==> exists m :: m in nodes && Significant(m) && u == ToUpdate(m, toMillis)
    ensures forall m :: m in nodes && Significant(m) ==> ToUpdate(m, toMillis) in us
  {
    EntriesMembers(nodes, toMillis);
    Entries(nodes, toMillis)
  }

  function ToUpdate(m: MapNode, toMillis: string -> int): Update
    requires m.node.latestReading.Some?
  {
    var r := m.node.latestReading.value;
    Update(m.node.name, m.change, r.waterLevel, toMillis(r.timestamp))
  }

  /** A single node yields its entry exactly when it is significant. */
  lemma CandidatesOfOne(m: MapNode, toMillis: string -> int)
    ensures Candidates([m], toMillis) == if Significant(m) then [ToUpdate(m, toMillis)] else []
  {
    assert [m][1..] == [];
    assert Entries([m], toMillis)
           == (if Significant(m) then [ToUpdate(m, toMillis)] else []) + Entries([], toMillis);
  }

  /**
   Splitting the node list splits the candidates the same way, so with
   `CandidatesOfOne` they are one entry per significant node, in list order.
   */
  lemma CandidatesAppend(a: seq<MapNode>, b: seq<MapNode>, toMillis: string -> int)
    ensures Candidates(a + b, toMillis) == Candidates(a, toMillis) + Candidates(b, toMillis)
  {
    EntriesAppend(a, b, toMillis);
  }

  /** Newest first. */
  ghost predicate NewestFirst(us: seq<Update>)
  {
    forall i, j :: 0 <= i < j < |us| ==> us[i].time >= us[j].time
  }

  /** Insert `u` ahead of every entry that is not newer than it (so ties keep their order). */
  function Insert(u: Update, sorted: seq<Update>): (out: seq<Update>)
    ensures multiset(out) == multiset(sorted) + multiset{u}
    ensures |out| == |sorted| + 1
    ensures forall x :: x in out ==> x in sorted || x == u
    decreases |sorted|
  {
    if sorted == [] then [u]
    else if sorted[0].time <= u.time then [u] + sorted
    else
      assert sorted == [sorted[0]] + sorted[1..];
      [sorted[0]] + Insert(u, sorted[1..])
  }

  /** Inserting into a newest-first list keeps it newest first. */
  lemma {:induction false} InsertKeepsOrder(u: Update, sorted: seq<Update>)
    requires NewestFirst(sorted)
    ensures NewestFirst(Insert(u, sorted))
    decreases |sorted|
  {
    if sorted != [] && sorted[0].time > u.time {
      var rest := Insert(u, sorted[1..]);
      InsertKeepsOrder(u, sorted[1..]);
      assert Insert(u, sorted) == [sorted[0]] + rest;
      forall x | x in rest
        ensures x.time <= sorted[0].time
      {
        if x != u {
          var j :| 0 <= j < |sorted[1..]| && sorted[1..][j] == x;
          assert sorted[j + 1] == x;
        }
      }
    }
  }

  /** The entries of `us` with time `t`, in their order in `us`. */
  function AtTime(us: seq<Update>, t: int): seq<Update>
    decreases |us|
  {
    if us == [] then []
    else (if us[0].time == t then [us[0]] else []) + AtTime(us[1..], t)
  }

  /** Filtering a list that starts with `x` keeps `x` first exactly when it has time `t`. */
  lemma AtTimeCons(x: Update, rest: seq<Update>, t: int)
    ensures AtTime([x] + rest, t) == (if x.time == t then [x] else []) + AtTime(rest, t)
  {
    assert ([x] + rest)[1..] == rest;
  }

  /** Filtering by time distributes over concatenation. */
  lemma {:induction false} AtTimeAppend(a: seq<Update>, b: seq<Update>, t: int)
    ensures AtTime(a + b, t) == AtTime(a, t) + AtTime(b, t)
    decreases |a|
  {
    if a == [] {
      assert a + b == b;
    } else {
      assert a + b == [a[0]] + (a[1..] + b);
      assert a == [a[0]] + a[1..];
      AtTimeCons(a[0], a[1..] + b, t);
      AtTimeCons(a[0], a[1..], t);
      AtTimeAppend(a[1..], b, t);
    }
  }

  /** The entries of time `t` in a prefix are the first of those in the whole list. */
  lemma AtTimePrefix(s: seq<Update>, k: nat, t: int)
    requires k <= |s|
    ensures |AtTime(s[..k], t)| <= |AtTime(s, t)|
    ensures AtTime(s[..k], t) == AtTime(s, t)[..|AtTime(s[..k], t)|]
  {
    assert s == s[..k] + s[k..];
    AtTimeAppend(s[..k], s[k..], t);
  }

  /**
   Passing over a newer head `x`: when `u` (older than `x`) is filtered ahead
   of the tail, it is also filtered ahead of the whole list.
   */
  lemma AtTimeSkipNewer(u: Update, x: Update, tail: seq<Update>, rest: seq<Update>, t: int)
    requires x.time > u.time
    requires AtTime(rest, t) == (if u.time == t then [u] else []) + AtTime(tail, t)
    ensures AtTime([x] + rest, t) == (if u.time == t then [u] else []) + AtTime([x] + tail, t)
  {
    AtTimeCons(x, rest, t);
    AtTimeCons(x, tail, t);
    if x.time == t {
      assert u.time != t;
    }
  }

  /**
   Insertion puts `u` ahead of every entry of equal time and leaves the
   order of all other equal-time entries alone.
   */
  lemma {:induction false} InsertKeepsTies(u: Update, sorted: seq<Update>, t: int)
    ensures AtTime(Insert(u, sorted), t) == (if u.time == t then [u] else []) + AtTime(sorted, t)
    decreases |sorted|
  {
    if sorted == [] {
      AtTimeCons(u, [], t);
      assert [u] + [] == [u];
    } else if sorted[0].time <= u.time {
      AtTimeCons(u, sorted, t);
    } else {
      InsertKeepsTies(u, sorted[1..], t);
      AtTimeSkipNewer(u, sorted[0], sorted[1..], Insert(u, sorted[1..]), t);
      assert sorted == [sorted[0]] + sorted[1..];
    }
  }

  /**
   The comparator sort of the panel: newest first, and stable, as the
   platform's sort is: entries of equal time keep their input order.
   */
  function SortNewestFirst(us: seq<Update>): (out: seq<Update>)
    ensures multiset(out) == multiset(us)
    ensures NewestFirst(out)
    ensures forall t :: AtTime(out, t) == AtTime(us, t)
    decreases |us|
  {
    if us == [] then []
    else
      assert us == [us[0]] + us[1..];
      var rest := SortNewestFirst(us[1..]);
      InsertKeepsOrder(us[0], rest);
      assert forall t :: AtTime(Insert(us[0], rest), t) == AtTime(us, t) by {
        forall t
          ensures AtTime(Insert(us[0], rest), t) == AtTime(us, t)
        {
          InsertKeepsTies(us[0], rest, t);
        }
      }
      Insert(us[0], rest)
  }

  /** The recent-updates panel: significant changes, newest first, at most five. */
  function RecentUpdates(nodes: seq<MapNode>, toMillis: string -> int): (out: seq<Update>)
    // as many entries as there are candidates, but no more than five
    ensures |out| == Min(|Candidates(nodes, toMillis)|, MaxRecent)
    ensures NewestFirst(out)
    ensures multiset(out) <= multiset(Candidates(nodes, toMillis))
  {
    var cands := Candidates(nodes, toMillis);
    var sorted := SortNewestFirst(cands);
    var k := Min(|sorted|, MaxRecent);
    assert sorted == sorted[..k] + sorted[k..];
    sorted[..k]
  }

  /** No entry of `pool` left out of `shown` is newer than any entry shown. */
  predicate NoNewerLeftOut(shown: seq<Update>, pool: multiset<Update>)
  {
    forall u: Update, v: Update :: u in shown && v in pool - multiset(shown) ==> v.time <= u.time
  }

  /** The first `k` entries of a newest-first list are at least as new as every other entry. */
  lemma PrefixIsNewest(sorted: seq<Update>, k: nat)
    requires NewestFirst(sorted) && k <= |sorted|
    ensures NoNewerLeftOut(sorted[..k], multiset(sorted))
  {
    assert sorted == sorted[..k] + sorted[k..];
    assert multiset(sorted) - multiset(sorted[..k]) == multiset(sorted[k..]);
    forall u: Update, v: Update | u in sorted[..k] && v in multiset(sorted) - multiset(sorted[..k])
      ensures v.time <= u.time
    {
      var i :| 0 <= i < k && sorted[..k][i] == u;
      assert v in sorted[k..];
      var j :| 0 <= j < |sorted| - k && sorted[k..][j] == v;
      assert sorted[i] == u && sorted[k + j] == v;
    }
  }

  /**
   The panel shows the newest candidates: every candidate left out is no newer
   than any entry shown.
   */
  lemma RecentUpdatesAreNewest(nodes: seq<MapNode>, toMillis: string -> int)
    ensures NoNewerLeftOut(RecentUpdates(nodes, toMillis), multiset(Candidates(nodes, toMillis)))
  {
    var cands := Candidates(nodes, toMillis);
    var sorted := SortNewestFirst(cands);
    var out := RecentUpdates(nodes, toMillis);
    assert out == sorted[..|out|];
    PrefixIsNewest(sorted, |out|);
  }

  /**
   Among candidates of equal time the panel shows the first ones in list
   order: the stable sort keeps ties in list order before the cut.
   */
  lemma RecentUpdatesKeepsTieOrder(nodes: seq<MapNode>, toMillis: string -> int, t: int)
    ensures var cands := Candidates(nodes, toMillis);
            var shown := AtTime(RecentUpdates(nodes, toMillis), t);
            |shown| <= |AtTime(cands, t)| && shown == AtTime(cands, t)[..|shown|]
  {
    var cands := Candidates(nodes, toMillis);
    var sorted := SortNewestFirst(cands);
    var out := RecentUpdates(nodes, toMillis);
    assert out == sorted[..|out|];
    AtTimePrefix(sorted, |out|, t);
  }

  // ---------------------------------------------------------------------------
  // Status counts

  datatype MapStats = MapStats(total: nat, normal: nat, warning: nat, danger: nat)

  /** The status of every node, in list order. */
  function Statuses(nodes: seq<NodeWithReading>): (ss: seq<Option<Status>>)
    ensures |ss| == |nodes|
  {
    seq(|nodes|, i requires 0 <= i < |nodes| => nodes[i].status)
  }

  /** The number of nodes whose status is `s`. */
  function CountStatus(nodes: seq<NodeWithReading>, s: Status): (k: nat)
    ensures k <= |nodes|
    ensures k == multiset(Statuses(nodes))[Some(s)]
    decreases |nodes|
  {
    if nodes == [] then 0
    else
      assert Statuses(nodes) == [nodes[0].status] + Statuses(nodes[1..]);
      (if nodes[0].status == Some(s) then 1 else 0) + CountStatus(nodes[1..], s)
  }

  /** The number of nodes without a status. */
  function CountUnset(nodes: seq<NodeWithReading>): (k: nat)
    ensures k == multiset(Statuses(nodes))[None]
    decreases |nodes|
  {
    if nodes == [] then 0
    else
      assert Statuses(nodes) == [nodes[0].status] + Statuses(nodes[1..]);
      (if nodes[0].status.None? then 1 else 0) + CountUnset(nodes[1..])
  }

  /** Every node is counted once: in one of the three bands or as having no status. */
  lemma {:induction false} CountsPartition(nodes: seq<NodeWithReading>)
    ensures CountStatus(nodes, Normal) + CountStatus(nodes, Warning) + CountStatus(nodes, Danger)
            + CountUnset(nodes) == |nodes|
    decreases |nodes|
  {
    if nodes != [] {
      CountsPartition(nodes[1..]);
      match nodes[0].status
      case None =>
      case Some(s) =>
        assert s == Normal || s == Warning || s == Danger;
    }
  }

  /** The header counts: each band's field is the number of nodes in that band. */
  function Stats(nodes: seq<NodeWithReading>): (st: MapStats)
    ensures st.total == |nodes|
    ensures st.normal == multiset(Statuses(nodes))[Some(Normal)]
    ensures st.warning == multiset(Statuses(nodes))[Some(Warning)]
    ensures st.danger == multiset(Statuses(nodes))[Some(Danger)]
    ensures st.normal + st.warning + st.danger <= st.total
    ensures (forall i :: 0 <= i < |nodes| ==> nodes[i].status.Some?) ==>
              st.normal + st.warning + st.danger == st.total
  {
    CountsPartition(nodes);
    AllSetMeansNoneUnset(nodes);
    MapStats(|nodes|, CountStatus(nodes, Normal), CountStatus(nodes, Warning), CountStatus(nodes, Danger))
  }

  lemma {:induction false} AllSetMeansNoneUnset(nodes: seq<NodeWithReading>)
    ensures (forall i :: 0 <= i < |nodes| ==> nodes[i].status.Some?) ==> CountUnset(nodes) == 0
    decreases |nodes|
  {
    if nodes != [] {
      AllSetMeansNoneUnset(nodes[1..]);
      if forall i :: 0 <= i < |nodes| ==> nodes[i].status.Some? {
        assert forall i :: 0 <= i < |nodes[1..]| ==> nodes[1..][i] == nodes[i + 1];
      }
    }
  }
}

=== FILE: node_records.dfy ===
/**
 The dashboard's view of a monitoring node with its latest durable reading
 and derived status, and the one way the dashboard pages patch such a node
 with a live reading.
 */
module NodeRecords {
  import opened Common
  import NodeStatus

  /** The columns of a stored reading other than its level and time. */
  datatype ReadingColumns = ReadingColumns(readingId: int, nodeId: int, flowRate: real)

  /**
   A node's latest reading as the pages hold it. A reading patched in from
   the live feed onto a node that had none carries no other columns.
   */
  datatype Reading = Reading(columns: Option<ReadingColumns>, waterLevel: real, timestamp: string)

  /** A node with its latest reading (if any) and status (if computed). */
  datatype NodeWithReading = NodeWithReading(
    nodeId: int,
    name: string,
    threshold: Threshold,
    latestReading: Option<Reading>,
    status: Option<Status>)

  /**
   Replace the node's level and time by a live reading, keep every other
   column of its previous reading, and recompute its status against its own
   threshold.
   */
  function WithLiveReading(node: NodeWithReading, waterLevel: real, timestamp: string): (n: NodeWithReading)
    ensures n.nodeId == node.nodeId && n.name == node.name && n.threshold == node.threshold
    ensures n.latestReading.Some?
    ensures n.latestReading.value.waterLevel == waterLevel && n.latestReading.value.timestamp == timestamp
    ensures node.latestReading.Some? ==> n.latestReading.value.columns == node.latestReading.value.columns
    ensures node.latestReading.None? ==> n.latestReading.value.columns.None?
    ensures n.status == Some(NodeStatus.GetNodeStatus(waterLevel, node.threshold))
  {
    var columns := if node.latestReading.Some? then node.latestReading.value.columns else None;
    node.(latestReading := Some(Reading(columns, waterLevel, timestamp)),
          status := Some(NodeStatus.GetNodeStatus(waterLevel, node.threshold)))
  }

  /** Shown on the alerts page: status warning or danger. */
  predicate InAlert(node: NodeWithReading)
  {
    node.status.Some? && node.status.value.IsAlert()
  }
}

=== FILE: node_status.dfy ===
/**
 The client-side severity rule shared by the dashboard pages: a water level is
 judged by its percentage of the node's threshold, with bands at 70% and 90%.
 */
module NodeStatus {
  import opened Common

  /** The water level as a percentage of the node's threshold. */
  function Percentage(waterLevel: real, threshold: Threshold): real
  {
    waterLevel / threshold * 100.0
  }

  /** `percentage >= k` is the same as `waterLevel >= k% of threshold`. */
  lemma PercentageAtLeast(waterLevel: real, threshold: Threshold, k: real)
    ensures Percentage(waterLevel, threshold) >= k <==> waterLevel >= k / 100.0 * threshold
  {
    var p := waterLevel / threshold;
    assert p * threshold == waterLevel;
    if p * 100.0 >= k {
      assert waterLevel == p * threshold >= k / 100.0 * threshold by {
        MulMonotone(k / 100.0, p, threshold);
      }
    } else {
      assert waterLevel == p * threshold < k / 100.0 * threshold by {
        MulStrict(p, k / 100.0, threshold);
      }
    }
  }

  lemma MulMonotone(a: real, b: real, c: real)
    requires a <= b && c > 0.0
    ensures a * c <= b * c
  {
  }

  lemma MulStrict(a: real, b: real, c: real)
    requires a < b && c > 0.0
    ensures a * c < b * c
  {
  }

  /** Severity of a reading against its node's threshold (90% danger, 70% warning). */
  function GetNodeStatus(waterLevel: real, threshold: Threshold): (s: Status)
    ensures s == Danger <==> waterLevel >= 0.9 * threshold
    ensures s == Warning <==> 0.7 * threshold <= waterLevel < 0.9 * threshold
    ensures s == Normal <==> waterLevel < 0.7 * threshold
  {
    PercentageAtLeast(waterLevel, threshold, 90.0);
    PercentageAtLeast(waterLevel, threshold, 70.0);
    var p := Percentage(waterLevel, threshold);
    if p >= 90.0 then Danger
    else if p >= 70.0 then Warning
    else Normal
  }

  /** Exactly 90% is already danger and exactly 70% is already warning. */
  lemma Boundaries(threshold: Threshold)
    ensures GetNodeStatus(0.9 * threshold, threshold) == Danger
    ensures GetNodeStatus(0.7 * threshold, threshold) == Warning
  {
  }

  /** For a fixed threshold, a higher water level never gives a milder status. */
  lemma Monotone(lower: real, higher: real, threshold: Threshold)
    requires lower <= higher
    ensures GetNodeStatus(lower, threshold).Rank() <= GetNodeStatus(higher, threshold).Rank()
  {
  }
}

=== FILE: readings.dfy ===
/**
 The durable-readings route: creating a reading (`POST /`) with its field
 validation, node lookup and threshold alert rule, and the per-node
 statistics (`GET /stats/:nodeId`). The store's node table, the insert's
 outcome, the ISO-8601 check and the server clock are parameters.
 */
module Readings {
  import opened Common
  import NodeStatus

  // ---------------------------------------------------------------------------
  // Alert rule

  /** Danger at or above the threshold, warning from 90% of it, else normal. */
  function AlertStatus(waterLevel: real, threshold: Threshold): (s: Status)
    ensures s == Danger <==> waterLevel >= threshold
    ensures s == Warning <==> 0.9 * threshold <= waterLevel < threshold
    ensures s == Normal <==> waterLevel < 0.9 * threshold
  {
    if waterLevel >= threshold * 0.9 then
      if waterLevel >= threshold then Danger else Warning
    else Normal
  }

  /** For a fixed threshold, a higher level never gives a milder status. */
  lemma AlertStatusMonotone(lower: real, higher: real, threshold: Threshold)
    requires lower <= higher
    ensures AlertStatus(lower, threshold).Rank() <= AlertStatus(higher, threshold).Rank()
  {
  }

  /**
   The server raises an alert exactly where the dashboards show danger: its
   warning band [90%, 100%) is already the client's danger band.
   */
  lemma AlertMeansClientDanger(waterLevel: real, threshold: Threshold)
    ensures AlertStatus(waterLevel, threshold).IsAlert()
            <==> NodeStatus.GetNodeStatus(waterLevel, threshold) == Danger
  {
  }

  // ---------------------------------------------------------------------------
  // Creating a reading

  /** The JSON body; any field may be absent. */
  datatype CreateBody = CreateBody(
    nodeId: Option<real>,
    waterLevel: Option<real>,
    flowRate: Option<real>,
    timestamp: Option<string>)

  /** The fields a validation error can name, in the order they are checked. */
  datatype Field = NodeIdField | WaterLevelField | FlowRateField | TimestampField

  predicate IsInteger(x: real)
  {
    x.Floor as real == x
  }

  predicate ValidNodeId(v: Option<real>)
  {
    v.Some? && IsInteger(v.value) && v.value >= 1.0
  }

  predicate NonNegative(v: Option<real>)
  {
    v.Some? && v.value >= 0.0
  }

  /** An absent timestamp is fine; a present one must be ISO-8601. */
  predicate ValidTimestamp(ts: Option<string>, isIso8601: string -> bool)
  {
    ts.None? || isIso8601(ts.value)
  }

  /** Every failed rule, in declaration order. */
  function ValidationErrors(body: CreateBody, isIso8601: string -> bool): (errors: seq<Field>)
    ensures NodeIdField in errors <==> !ValidNodeId(body.nodeId)
    ensures WaterLevelField in errors <==> !NonNegative(body.waterLevel)
    ensures FlowRateField in errors <==> !NonNegative(body.flowRate)
    ensures TimestampField in errors <==> !ValidTimestamp(body.timestamp, isIso8601)
    ensures |errors| <= 4
  {
    (if ValidNodeId(body.nodeId) then [] else [NodeIdField])
    + (if NonNegative(body.waterLevel) then [] else [WaterLevelField])
    + (if NonNegative(body.flowRate) then [] else [FlowRateField])
    + (if ValidTimestamp(body.timestamp, isIso8601) then [] else [TimestampField])
  }

  /** A stored reading row. */
  datatype Row = Row(nodeId: int, waterLevel: real, flowRate: real, timestamp: string)

  datatype CreateResponse =
    | BadRequest(errors: seq<Field>)          // 400
    | NodeNotFound                            // 404
    | InsertFailed                            // 500
    | Created(row: Row, alertStatus: Status)  // 201

  /**
   Handle `POST /`: validate, look the node up in `nodes` (node id to
   threshold), insert (which may fail), and report the alert status.
   */
  function Create(body: CreateBody, nodes: map<int, Threshold>, insertFails: bool,
                  isIso8601: string -> bool, serverTime: string): (r: CreateResponse)
    // any failed rule gives 400, before the lookup and the insert
    ensures r.BadRequest? <==> ValidationErrors(body, isIso8601) != []
    ensures r.BadRequest? ==> r.errors == ValidationErrors(body, isIso8601)
    // an unknown node gives 404 and nothing is inserted
    ensures r.NodeNotFound? <==> ValidationErrors(body, isIso8601) == [] && body.nodeId.value.Floor !in nodes
    ensures r.Created? ==>
              && ValidationErrors(body, isIso8601) == []
              && r.row.nodeId == body.nodeId.value.Floor && r.row.nodeId >= 1
              && r.row.nodeId in nodes
              && r.row.waterLevel == body.waterLevel.value >= 0.0
              && r.row.flowRate == body.flowRate.value >= 0.0
              // a missing timestamp defaults to the server's time
              && r.row.timestamp == body.timestamp.GetOr(serverTime)
              && r.alertStatus == AlertStatus(r.row.waterLevel, nodes[r.row.nodeId])
    // the insert is reached only for a valid body naming a known node
    ensures r.InsertFailed? <==>
              ValidationErrors(body, isIso8601) == [] && body.nodeId.value.Floor in nodes && insertFails
  {
    var errors := ValidationErrors(body, isIso8601);
    if errors != [] then BadRequest(errors)
    else
      var id := body.nodeId.value.Floor;
      if id !in nodes then NodeNotFound
      else if insertFails then InsertFailed
      else
        var level := body.waterLevel.value;
        var row := Row(id, level, body.flowRate.value, body.timestamp.GetOr(serverTime));
        Created(row, AlertStatus(level, nodes[id]))
  }

  // ---------------------------------------------------------------------------
  // Statistics

  /** The stored readings that a statistics query selects. */
  datatype StatRow = StatRow(waterLevel: real, flowRate: real)

  datatype Summary = Summary(avg: real, min: real, max: real)

  datatype StatsReply =
    | NoData
    | Stats(count: nat, waterLevel: Summary, flowRate: Summary)

  function Sum(xs: seq<real>): real
  {
    if xs == [] then 0.0 else Sum(xs[..|xs| - 1]) + xs[|xs| - 1]
  }

  /** The least value is a member that no value undercuts, likewise the greatest. */
  ghost predicate Summarizes(xs: seq<real>, s: Summary)
  {
    && s.min in xs && (forall x :: x in xs ==> s.min <= x)
    && s.max in xs && (forall x :: x in xs ==> x <= s.max)
    && s.avg == Sum(xs) / |xs| as real
    && s.min <= s.avg <= s.max
  }

  lemma ScaleDown(lo: real, sum: real, n: real)
    requires n > 0.0 && n * lo <= sum
    ensures lo <= sum / n
  {
  }

  lemma ScaleUp(hi: real, sum: real, n: real)
    requires n > 0.0 && sum <= n * hi
    ensures sum / n <= hi
  {
  }

  lemma MulLeft(n: real, a: real, b: real)
    requires n >= 0.0 && a <= b
    ensures n * a <= n * b
  {
  }

  /** The sum of `n` values lies between `n` times the least and `n` times the greatest. */
  ghost predicate Sandwiched(n: real, lo: real, hi: real, sum: real)
  {
    n * lo <= sum <= n * hi
  }

  /** One more copy of `a` adds `a` to the product. */
  lemma AddOne(n: real, a: real)
    ensures (n + 1.0) * a == n * a + a
  {
  }

  /** Adding one value keeps the sum sandwiched. */
  lemma ExtendBounds(n: real, lo: real, hi: real, sum: real, x: real, lo': real, hi': real)
    requires n >= 0.0 && Sandwiched(n, lo, hi, sum)
    requires lo' <= lo && lo' <= x && hi <= hi' && x <= hi'
    ensures Sandwiched(n + 1.0, lo', hi', sum + x)
  {
    // name the products so that only linear reasoning is left
    var nLo, nLo', nHi, nHi' := n * lo, n * lo', n * hi, n * hi';
    assert nLo <= sum <= nHi;
    MulLeft(n, lo', lo);
    assert nLo' <= nLo;
    MulLeft(n, hi, hi');
    assert nHi <= nHi';
    AddOne(n, lo');
    AddOne(n, hi');
    assert (n + 1.0) * lo' == nLo' + lo' <= sum + x <= nHi' + hi' == (n + 1.0) * hi';
  }

  /** What one pass has gathered about the values `ys` seen so far. */
  ghost predicate Tracks(ys: seq<real>, mn: real, mx: real, sum: real)
  {
    && mn in ys && mx in ys
    && (forall y :: y in ys ==> mn <= y <= mx)
    && sum == Sum(ys)
    && Sandwiched(|ys| as real, mn, mx, sum)
  }

  /** Seeing one more value: keep the smaller least, the larger greatest, add it to the sum. */
  lemma TracksStep(ys: seq<real>, x: real, mn: real, mx: real, sum: real)
    requires Tracks(ys, mn, mx, sum)
    ensures Tracks(ys + [x], if x < mn then x else mn, if x > mx then x else mx, sum + x)
  {
    var zs := ys + [x];
    assert zs[..|zs| - 1] == ys;
    var mn' := if x < mn then x else mn;
    var mx' := if x > mx then x else mx;
    ExtendBounds(|ys| as real, mn, mx, sum, x, mn', mx');
    assert |zs| as real == |ys| as real + 1.0;
  }

  /** At the end of the pass the gathered values are the summary. */
  lemma TracksSummarizes(xs: seq<real>, mn: real, mx: real, sum: real)
    requires |xs| > 0 && Tracks(xs, mn, mx, sum)
    ensures Summarizes(xs, Summary(sum / |xs| as real, mn, mx))
  {
    var n := |xs| as real;
    assert n * mn <= sum <= n * mx;
    ScaleDown(mn, sum, n);
    ScaleUp(mx, sum, n);
  }

  /** Average, least and greatest of a non-empty column, in one pass. */
  method Summarize(xs: seq<real>) returns (s: Summary)
    requires |xs| > 0
    ensures Summarizes(xs, s)
  {
    var mn, mx, sum := xs[0], xs[0], xs[0];
    var i := 1;
    assert xs[..1] == [xs[0]];
    assert Sum(xs[..1]) == Sum([]) + xs[0];
    while i < |xs|
      invariant 1 <= i <= |xs|
      invariant Tracks(xs[..i], mn, mx, sum)
    {
      var x := xs[i];
      TracksStep(xs[..i], x, mn, mx, sum);
      assert xs[..i + 1] == xs[..i] + [x];
      mn := if x < mn then x else mn;
      mx := if x > mx then x else mx;
      sum := sum + x;
      i := i + 1;
    }
    assert xs[..i] == xs;
    TracksSummarizes(xs, mn, mx, sum);
    s := Summary(sum / |xs| as real, mn, mx);
  }

  /** `GET /stats/:nodeId` over the selected rows. */
  method ComputeStats(rows: seq<StatRow>) returns (reply: StatsReply)
    ensures rows == [] <==> reply.NoData?
    ensures reply.Stats? ==>
              && reply.count == |rows|
              && Summarizes(seq(|rows|, i requires 0 <= i < |rows| => rows[i].waterLevel), reply.waterLevel)
              && Summarizes(seq(|rows|, i requires 0 <= i < |rows| => rows[i].flowRate), reply.flowRate)
  {
    if rows == [] {
      return NoData;
    }
    var levels := seq(|rows|, i requires 0 <= i < |rows| => rows[i].waterLevel);
    var flows := seq(|rows|, i requires 0 <= i < |rows| => rows[i].flowRate);
    var wl := Summarize(levels);
    var fr := Summarize(flows);
    reply := Stats(|rows|, wl, fr);
  }
}

=== FILE: redis_config.dfy ===
/**
 The cache configuration: the reconnect policy handed to the cache client and
 the builders of the cache's key names.
 */
module RedisConfig {
  import opened Common

  /** Retries allowed before the client gives up. */
  const MaxRetries: nat := 10
  /** Delay (ms) added per retry. */
  const RetryStepMs: nat := 100

  /** Wait `retries * 100` ms before the next attempt, or give up after 10 retries. */
  function ReconnectDelay(retries: nat): (r: Result<nat, string>)
    ensures r.Err? <==> retries > MaxRetries
    ensures r.Err? ==> r.error == "Too many retries"
    ensures r.Ok? ==> r.value <= MaxRetries * RetryStepMs
    // 100 ms per retry
    ensures r.Ok? ==> r.value == retries * RetryStepMs
  {
    if retries > 10 then Err("Too many retries")
    else Ok(retries * 100)
  }

  /** The delay grows linearly (not exponentially) and never exceeds one second. */
  lemma DelayMonotone(a: nat, b: nat)
    requires a <= b <= MaxRetries
    ensures ReconnectDelay(a).Ok? && ReconnectDelay(b).Ok?
    ensures ReconnectDelay(a).value <= ReconnectDelay(b).value <= 1000
    ensures ReconnectDelay(b).value - ReconnectDelay(a).value == (b - a) * RetryStepMs
  {
  }

  // ---------------------------------------------------------------------------
  // Key names

  const NodePrefix: string := "node:"

  /** `node:<id><suffix>`, the shape of every per-node key. */
  function NodeKey(nodeId: string, suffix: string): (key: string)
    ensures |key| == |NodePrefix| + |nodeId| + |suffix|
    ensures key[..|NodePrefix|] == NodePrefix
    ensures key[|NodePrefix|..|key| - |suffix|] == nodeId
    ensures key[|key| - |suffix|..] == suffix
  {
    NodePrefix + nodeId + suffix
  }

  /** The inverse of `NodeKey` for a known suffix: the node a key belongs to, if any. */
  function NodeOfKey(key: string, suffix: string): (node: Option<string>)
    ensures node.Some? ==> NodeKey(node.value, suffix) == key
  {
    if |key| >= |NodePrefix| + |suffix|
       && key[..|NodePrefix|] == NodePrefix
       && key[|key| - |suffix|..] == suffix
    then
      var node := key[|NodePrefix|..|key| - |suffix|];
      assert key == key[..|NodePrefix|] + node + key[|key| - |suffix|..];
      Some(node)
    else None
  }

  /** Parsing a built key gives back its node. */
  lemma NodeKeyRoundTrip(nodeId: string, suffix: string)
    ensures NodeOfKey(NodeKey(nodeId, suffix), suffix) == Some(nodeId)
  {
  }

  /** For one suffix, distinct nodes get distinct keys. */
  lemma NodeKeyInjective(a: string, b: string, suffix: string)
    requires NodeKey(a, suffix) == NodeKey(b, suffix)
    ensures a == b
  {
    NodeKeyRoundTrip(a, suffix);
    NodeKeyRoundTrip(b, suffix);
  }

  /** The key of a node's latest reading; its node can be read back from it. */
  function LatestReading(nodeId: string): (key: string)
    ensures NodeOfKey(key, ":latest") == Some(nodeId)
  {
    NodeKeyRoundTrip(nodeId, ":latest");
    NodeKey(nodeId, ":latest")
  }

  /** The key of a node's recent-readings list. */
  function RecentReadings(nodeId: string): (key: string)
    ensures NodeOfKey(key, ":recent") == Some(nodeId)
  {
    NodeKeyRoundTrip(nodeId, ":recent");
    NodeKey(nodeId, ":recent")
  }

  /** The key of a node's status. */
  function NodeStatusKey(nodeId: string): (key: string)
    ensures NodeOfKey(key, ":status") == Some(nodeId)
  {
    NodeKeyRoundTrip(nodeId, ":status");
    NodeKey(nodeId, ":status")
  }

  /** The key of a node's aggregate over `interval`. */
  function Aggregated(nodeId: string, interval: string): (key: string)
    ensures NodeOfKey(key, ":agg:" + interval) == Some(nodeId)
  {
    NodeKeyRoundTrip(nodeId, ":agg:" + interval);
    NodeKey(nodeId, ":agg:" + interval)
  }

  /** The alert queue has one fixed key, outside the per-node key space. */
  function AlertQueue(): (key: string)
    ensures forall nodeId, suffix :: key != NodeKey(nodeId, suffix)
  {
    var key := "alerts:queue";
    assert key[0] == 'a' != NodePrefix[0];
    key
  }

  /** Each per-node builder is injective, and the three fixed-suffix kinds never collide. */
  lemma KeyKindsInjective(a: string, b: string)
    ensures LatestReading(a) == LatestReading(b) ==> a == b
    ensures RecentReadings(a) == RecentReadings(b) ==> a == b
    ensures NodeStatusKey(a) == NodeStatusKey(b) ==> a == b
    ensures LatestReading(a) != RecentReadings(b)
    ensures LatestReading(a) != NodeStatusKey(b)
    ensures RecentReadings(a) != NodeStatusKey(b)
  {
    if LatestReading(a) == LatestReading(b) { NodeKeyInjective(a, b, ":latest"); }
    if RecentReadings(a) == RecentReadings(b) { NodeKeyInjective(a, b, ":recent"); }
    if NodeStatusKey(a) == NodeStatusKey(b) { NodeKeyInjective(a, b, ":status"); }
    assert LatestReading(a)[|LatestReading(a)| - 7..] == ":latest";
    assert RecentReadings(b)[|RecentReadings(b)| - 7..] == ":recent";
    assert NodeStatusKey(b)[|NodeStatusKey(b)| - 7..] == ":status";
    assert ":latest"[1] != ":recent"[1] && ":latest"[1] != ":status"[1] && ":recent"[1] != ":status"[1];
  }

  /** For a fixed node, distinct intervals get distinct aggregate keys. */
  lemma AggregatedInjective(nodeId: string, i: string, j: string)
    requires Aggregated(nodeId, i) == Aggregated(nodeId, j)
    ensures i == j
  {
    var k := Aggregated(nodeId, i);
    var start := |NodePrefix| + |nodeId| + 5;
    assert k[start..] == i;
    assert Aggregated(nodeId, j)[start..] == j;
  }

  /**
   Node names are free text, so an aggregate key of one node can spell the
   latest-reading key of another: the key spaces are not separated.
   */
  lemma AggregatedCanAliasLatest()
    ensures Aggregated("x", "y:latest") == LatestReading("x:agg:y")
  {
  }
}

=== FILE: throttle.dfy ===
/**
 The per-node write throttle: a reading is also written to the durable store
 only when at least 30 s have passed since that node's last write, and the
 save time is updated as soon as the write is decided.
 */
module Throttle {
  import opened Common

  /** Minimum time (ms) between two durable writes of one node. */
  const WriteIntervalMs: nat := 30000

  /** Per node, the server time of its last durable write. */
  type SaveTimes = map<string, nat>

  datatype Decision = Decision(lastDbSave: SaveTimes, persist: bool)

  /** The last save time of a node, 0 when it was never saved. */
  function LastSave(lastDbSave: SaveTimes, node: string): nat
  {
    if node in lastDbSave then lastDbSave[node] else 0
  }

  /** Decide whether the reading at `now` is written; on a write, remember `now`. */
  function MaybePersist(lastDbSave: SaveTimes, node: string, now: nat): (d: Decision)
    ensures d.persist <==> now - LastSave(lastDbSave, node) >= WriteIntervalMs
    ensures d.persist ==> d.lastDbSave == lastDbSave[node := now]
    ensures !d.persist ==> d.lastDbSave == lastDbSave
  {
    var timeSinceLastSave := now - LastSave(lastDbSave, node);
    if timeSinceLastSave >= WriteIntervalMs then
      Decision(lastDbSave[node := now], true)
    else
      Decision(lastDbSave, false)
  }

  /** Two readings of one node less than the interval apart are written at most once. */
  lemma AtMostOncePerInterval(lastDbSave: SaveTimes, node: string, t1: nat, t2: nat)
    requires t1 <= t2 < t1 + WriteIntervalMs
    ensures !(MaybePersist(lastDbSave, node, t1).persist
              && MaybePersist(MaybePersist(lastDbSave, node, t1).lastDbSave, node, t2).persist)
  {
  }

  /** After a write, the next reading of the node is written iff the interval has passed. */
  lemma NextWriteAfterInterval(lastDbSave: SaveTimes, node: string, t1: nat, t2: nat)
    requires MaybePersist(lastDbSave, node, t1).persist
    ensures MaybePersist(MaybePersist(lastDbSave, node, t1).lastDbSave, node, t2).persist
            <==> t2 - t1 >= WriteIntervalMs
  {
  }

  /** Which readings of one node, at the given server times, are written. */
  function Writes(lastDbSave: SaveTimes, node: string, times: seq<nat>): (fired: seq<bool>)
    ensures |fired| == |times|
    decreases |times|
  {
    if times == [] then []
    else
      var d := MaybePersist(lastDbSave, node, times[0]);
      [d.persist] + Writes(d.lastDbSave, node, times[1..])
  }

  /** Every write of a run happens at least an interval after the last save before it. */
  lemma {:induction false} WritesAfterLastSave(lastDbSave: SaveTimes, node: string, times: seq<nat>)
    ensures forall k :: 0 <= k < |times| && Writes(lastDbSave, node, times)[k] ==>
              times[k] - LastSave(lastDbSave, node) >= WriteIntervalMs
    decreases |times|
  {
    if times != [] {
      var d := MaybePersist(lastDbSave, node, times[0]);
      var fired := Writes(lastDbSave, node, times);
      assert fired == [d.persist] + Writes(d.lastDbSave, node, times[1..]);
      WritesAfterLastSave(d.lastDbSave, node, times[1..]);
      forall k | 0 < k < |times| && fired[k]
        ensures times[k] - LastSave(lastDbSave, node) >= WriteIntervalMs
      {
        assert times[k] == times[1..][k - 1];
        assert Writes(d.lastDbSave, node, times[1..])[k - 1];
      }
    }
  }

  /**
   Over any run of readings of one node, any two durable writes are at least
   30 s apart, whatever the order of the clock values.
   */
  lemma {:induction false} WritesSeparated(lastDbSave: SaveTimes, node: string, times: seq<nat>)
    ensures forall i, j ::
              0 <= i < j < |times| && Writes(lastDbSave, node, times)[i] && Writes(lastDbSave, node, times)[j]
              ==> times[j] - times[i] >= WriteIntervalMs
    decreases |times|
  {
    if times != [] {
      var d := MaybePersist(lastDbSave, node, times[0]);
      var fired := Writes(lastDbSave, node, times);
      var rest := Writes(d.lastDbSave, node, times[1..]);
      assert fired == [d.persist] + rest;
      WritesSeparated(d.lastDbSave, node, times[1..]);
      WritesAfterLastSave(d.lastDbSave, node, times[1..]);
      forall i, j | 0 <= i < j < |times| && fired[i] && fired[j]
        ensures times[j] - times[i] >= WriteIntervalMs
      {
        assert times[j] == times[1..][j - 1] && rest[j - 1];
        if i > 0 {
          assert times[i] == times[1..][i - 1] && rest[i - 1];
        }
      }
    }
  }
}
